=== FILE: README.md ===
# Temperature alert pipeline of DashBoard_Temp, in Dafny

The service watches the temperature sensors of a data centre (CPD). This project models the decision logic of its alert pipeline:

- **Spike detector** (`detect_temperature_spikes`). It takes the rows of the recent window and groups them by location. It sorts each group by timestamp and picks the latest reading. It then scans backwards for the nearest earlier reading that has a temperature, and classifies the change between the two:
  - *roja*: a rise of at least 4.0 °C within 10 minutes;
  - *amarilla*: a rise of at least 2.5 °C within 10 minutes;
  - *azul*: a drop of at least 5.0 °C within 15 minutes;
  - nothing when the gap is not positive or exceeds 20 minutes.

  The alerts are then stably sorted by priority (roja, amarilla, azul; any other label gets rank 9).
- **Aggregator** (`generar_alertas`). It gives at most one threshold alert per latest reading, in reading order: roja at or above `danger`, otherwise amarilla at or above `warning`. When `alertas.detectar_spikes` is on, it appends the spike alerts. It stably sorts the result by the same priority with fallback rank 99.
- **E-mail dispatcher** (`AlertManager`).
  - `enviar_alertas_si_toca` does nothing when e-mail is disabled, when the last dispatch is less than `intervalo_envio_min` minutes old, or when there are no alerts.
  - Otherwise it records the time and the alerts. It then renders one HTML body and sends the same subject and body to every recipient in list order. If loading the credentials or a send raises, the tick ends there. The state stays recorded, and the later recipients get nothing.
  - `proximo_envio` reports the last dispatch plus the interval.
- **Address check** (`ValidarSintaxisEmail`). It matches the lowered address against `^[_a-z0-9-]+(\.[_a-z0-9-]+)*@[a-z0-9-]+(\.[a-z0-9-]+)*(\.[a-z]{2,4})$` under Python's `re.match`. That call's `$` also matches before one final newline.

Modules:

| module | file | content |
|---|---|---|
| `Wrappers` | `wrappers.dfy` | `Option` |
| `Config` | `config.dfy` | the parameter-file keys the pipeline reads, with the defaults of their `.get` calls |
| `Alerts` | `alerts.dfy` | alert records and the stable priority sort |
| `Spikes` | `spikes.dfy` | the detector |
| `Aggregation` | `aggregation.dfy` | `generar_alertas` |
| `Dispatch` | `dispatch.dfy` | the throttle, the HTML body and the mails of one tick, and the manager class |
| `EmailSyntax` | `email.dfy` | the address check |

Alert order is the part that needs real proof:

- **Reference order.** Python's `list.sort` is stable, and is modelled as insertion sort (`Alerts.SortByRank`). It is proved equal to a reference definition, `Alerts.Bucketed`: the roja alerts in input order, then the amarilla, then the azul, then the rest.
- **Detector.** The detector's dictionary iterates in first-insertion order (`Spikes.Locations`). So alerts of equal level come out in the order in which their locations first appear in the fetched rows.
- **Dispatch.** The dispatcher is a pure transition `Dispatch.Tick` on the manager's two attributes. It returns the new state, the mails handed to the transport, and which exit was taken.
- **Address check.** The regular expression is restated two ways. `EmailSyntax.MatchesPattern` is a grammar: labels joined by `.` around an `@`. `EmailSyntax.StrictMatch` splits on `@` and `.`. The two are proved to agree.

Nothing here is executed. The verifier's proofs are the only evidence.

## Model

| member | source | states |
|---|---|---|
| Spikes.DetectTemperatureSpikesSpec | app/module/database.py:168-211 | no rows give no alerts; every alert is the verdict for its own location; every location whose readings qualify gets its alert; at most one alert per location; every level is roja, amarilla or azul; the list is ordered by priority; within a level, alerts follow the first appearance of their location in the rows |
| Spikes.DetectSound | app/module/database.py:179-206 | every reported alert is exactly the decision for its location's group |
| Spikes.DetectComplete | app/module/database.py:179-206 | no qualifying location is missing from the output |
| Spikes.DetectOnePerLocation | app/module/database.py:172-179 | grouping by location gives each location at most one alert |
| Spikes.DetectKeepsFirstSeenOrder | app/module/database.py:172-209 | within each level, the order is the dictionary's insertion order of the locations |
| Spikes.DetectIsBucketed | app/module/database.py:208-209 | the output is the per-location alerts regrouped by level, keeping set, count per location and rank order |
| Spikes.Locations | app/module/database.py:172-179 | the dictionary keys are every location of the rows once each, in order of first appearance |
| Spikes.Group | app/module/database.py:173-175 | a group holds only rows of its location, and every such row |
| Spikes.GroupAppend | app/module/database.py:173-175 | appending a fetched row extends its own location's group by that row and leaves the other groups alone, so each group is its location's rows in fetch order |
| Spikes.GroupMultiset | app/module/database.py:173-175 | a group keeps each row of its location as many times as it was fetched, duplicates included |
| Spikes.AllPresentWellFormed | app/module/database.py:152-156 | rows that all carry a temperature, as the recent-window query selects them, meet the detector's precondition |
| Spikes.SortByTime | app/module/database.py:183 | the group sorted by timestamp is a permutation of it, in non-decreasing time |
| Spikes.SortByTimeStable | app/module/database.py:183 | the time sort is stable: for every timestamp, the readings taken at that time keep their fetch order, which decides the reference when readings tie at the second-latest time |
| Spikes.NearestPresent | app/module/database.py:186-191 | the backward scan stops at the highest earlier index with a temperature, and reports none when every earlier reading is null |
| Spikes.ScanFindsReference | app/module/database.py:184-191 | the scan finds index j exactly when j is the nearest reading before the latest that has a temperature |
| Spikes.Classify | app/module/database.py:199-206 | first match wins, bounds inclusive: roja iff a rise ≥ 4.0 within 600 s; amarilla iff 2.5 ≤ rise < 4.0 within 600 s; azul iff a drop ≤ −5.0 within 900 s; none otherwise; the message carries the signed delta and the gap that the text embeds |
| Spikes.Compare | app/module/database.py:193-206 | an alert only for a gap in (0, 1200] s; each level exactly under its rule; the alert names the location, and its message carries the latest-minus-reference delta and gap |
| Spikes.SpikeOf | app/module/database.py:180-191 | a group with fewer than two readings yields nothing; any alert names the location and carries a known level |
| Spikes.SpikeOfReference | app/module/database.py:183-206 | with a reference reading, the verdict is the comparison of the latest reading in time order with that reference, and the latest reading has a temperature |
| Spikes.SpikeOfNoReference | app/module/database.py:186-191 | when no earlier reading has a temperature, the location is skipped |
| Spikes.FewReadingsNoAlert | app/module/database.py:180-181 | a location with fewer than two rows never appears in the output |
| Spikes.ClassificationExamples | app/module/database.py:193-206 | boundary verdicts: rise of 4.5 in 8 min is roja, 2.7 amarilla, drop of 5.5 in 12 min azul, 18 min gap nothing, exactly 600 s still roja, 601 s nothing, zero gap nothing |
| Spikes.DetectorExample | app/module/database.py:168-211 | two readings of `cpd`, 20.0 then 24.5 eight minutes later, give exactly one roja alert |
| Alerts.SortByRankSpec | app/module/database.py:208-209 | the priority sort is a permutation, ordered by rank, stable within each level, and keeps each location's count |
| Alerts.SortByRankIsBucketed | app/module/alertas.py:98-99 | with any fallback above 2, the stable sort equals roja block, amarilla block, azul block, other block, each in input order |
| Aggregation.ThresholdAlert | app/module/alertas.py:72-86 | roja iff temp ≥ danger; amarilla iff warning ≤ temp < danger; nothing iff below both; never azul; the alert names the reading's location, and its message is the critical or elevated temperature message carrying the reading's temperature |
| Aggregation.ThresholdAlertsSpec | app/module/alertas.py:70-86 | one alert per reading at or above a threshold, each coming from a reading, none lost, none azul |
| Aggregation.ThresholdAlertsConcat | app/module/alertas.py:71-86 | the threshold alerts of a concatenation of readings are those of the first part followed by those of the second, so the loop appends them in reading order |
| Aggregation.ThresholdAlertsOne | app/module/alertas.py:72-86 | a single reading contributes exactly its own threshold alert, if it has one |
| Aggregation.GenerarAlertasSpec | app/module/alertas.py:62-101 | the result is a permutation of the threshold alerts plus, only when enabled, the spike alerts; it is ordered by priority; within a level, threshold alerts precede spike alerts, each in its own order |
| Aggregation.NoSpikesNoAzul | app/module/alertas.py:91-93 | with spike detection off, every alert is roja or amarilla |
| Config.SpikesEnabled | app/module/alertas.py:91 | on exactly when the key is present and true |
| Config.EmailEnabled | app/module/alertas_manager.py:75-77 | on exactly when the key is present and true |
| Config.IntervalSeconds | app/module/alertas_manager.py:81 | 60 times the configured minutes, 3600 s when absent |
| Config.Recipients | app/module/alertas_manager.py:105 | the configured list, empty when absent |
| Dispatch.Initial | app/module/alertas_manager.py:45-47 | a new manager has sent nothing and holds no alerts |
| Dispatch.TickUnder | app/module/alertas_manager.py:74-113 | as `Dispatch.Tick`, for a transport that may raise: the state is recorded before any send; an exception from loading the credentials or from the send to recipient k ends the tick aborted, with exactly the first k recipients mailed (none for the credentials) |
| Dispatch.FaultOnlyCutsMail | app/module/alertas_manager.py:91-113 | a raising transport leaves the recorded state as a full dispatch would, sends a prefix of the full dispatch's mails, and turns a dispatch into an abort exactly when it interrupts it |
| Dispatch.AbortedKeepsWindow | app/module/alertas_manager.py:83-106 | an aborted dispatch still uses up the window: any tick less than an interval later sends nothing |
| Dispatch.Tick | app/module/alertas_manager.py:74-113 | with a transport that never raises: disabled iff not enabled; not due iff the last dispatch is less than an interval old; no alerts iff due with an empty list; those exits change nothing and send nothing; a dispatch records now and the alerts, and mails each recipient, in order, the fixed subject and the rendered body |
| Dispatch.ProximoEnvio | app/module/alertas_manager.py:117-129 | none before the first dispatch, otherwise exactly one interval after it |
| Dispatch.ThrottleMatchesProximo | app/module/alertas_manager.py:83 | a tick is due exactly when no dispatch happened yet or now has reached the time `proximo_envio` reports |
| Dispatch.InitialAlwaysDue | app/module/alertas_manager.py:83-93 | a new manager's first enabled tick with alerts dispatches |
| Dispatch.OneDispatchPerWindow | app/module/alertas_manager.py:83-84 | after a dispatch, any tick less than an interval later sends nothing and leaves the state alone |
| Dispatch.DispatchOnceIntervalElapsed | app/module/alertas_manager.py:83-93 | once the interval has elapsed, a tick with alerts dispatches again and moves `proximo_envio` forward |
| Dispatch.EmptyTickKeepsWindow | app/module/alertas_manager.py:87-89 | a tick without alerts leaves no trace: the next tick behaves as if it had not happened |
| Dispatch.MailsTo | app/module/alertas_manager.py:105-113 | one mail per recipient, in order, each with the subject and the body |
| Dispatch.ItemsConcat | app/module/alertas_manager.py:97-98 | the items of a concatenation are the concatenated items, so the body lists the alerts in order |
| Dispatch.HtmlBodyItems | app/module/alertas_manager.py:96-99 | the body is the header, one item per alert in order, then the footer |
| Dispatch.AlertManager.constructor | app/module/alertas_manager.py:45-47 | a new manager's state is the initial one and it has sent nothing |
| Dispatch.AlertManager.EnviarAlertasSiToca | app/module/alertas_manager.py:69-113 | on the mutable fields, the outcome, the new state and the mails appended to the sent log are those of `Dispatch.TickUnder` from the old state, with the state stored before the send loop |
| Dispatch.AlertManager.SendAll | app/module/alertas_manager.py:102-113 | the send loop mails the recipients in order, stops exactly when the transport raises, logs the mails of the completed sends, and leaves the dispatch state alone |
| Dispatch.AlertManager.ProximoEnvioNow | app/module/alertas_manager.py:117-129 | the reported time is `Dispatch.ProximoEnvio` of the current fields |
| Dispatch.RenderHtml | app/module/alertas_manager.py:96-99 | building the body by appending gives the header, the items and the footer |
| EmailSyntax.ValidarSintaxisEmail | app/module/correo.py:28-40 | the empty string is rejected |
| EmailSyntax.ValidarIsPattern | app/module/correo.py:38-40 | accepted iff the lowered string, or the lowered string less one final newline, is generated by the grammar of the pattern |
| EmailSyntax.StrictMatchIsPattern | app/module/correo.py:38 | deciding the pattern by splitting on `@` and `.` accepts exactly the strings the grammar generates |
| EmailSyntax.CaseInsensitive | app/module/correo.py:39 | an address and its lowered form get the same verdict |
| EmailSyntax.AcceptedHasOneAt | app/module/correo.py:38-40 | every accepted address has exactly one `@` |
| EmailSyntax.AcceptedCharset | app/module/correo.py:38-40 | every accepted address, lowered, uses only `[_a-z0-9.@-]`, save one final newline |
| EmailSyntax.Judged | app/module/correo.py:38-40 | an address given as labels is accepted iff the local labels and the domain labels have the pattern's shapes |
| EmailSyntax.AcceptsPlain | app/module/correo.py:38-40 | `a.b@c.de` is accepted |
| EmailSyntax.AcceptsUpperCase | app/module/correo.py:39 | `A@B.CO` is accepted |
| EmailSyntax.AcceptsFinalNewline | app/module/correo.py:38-40 | `x@y.es` followed by a newline is accepted |
| EmailSyntax.RejectsTwoNewlines | app/module/correo.py:38-40 | two final newlines are rejected |
| EmailSyntax.RejectsShortTop | app/module/correo.py:38 | a one-letter top-level label is rejected |
| EmailSyntax.RejectsLongTop | app/module/correo.py:38 | a five-letter top-level label is rejected |
| EmailSyntax.RejectsSingleLabelDomain | app/module/correo.py:38 | a domain without a dot is rejected |
| EmailSyntax.RejectsLeadingDot | app/module/correo.py:38 | an empty first local label is rejected |
| EmailSyntax.RejectsDoubledDot | app/module/correo.py:38 | an empty inner local label is rejected |
| EmailSyntax.RejectsTwoAts | app/module/correo.py:38 | two `@` are rejected |
| EmailSyntax.TrailingNewlineAccepted | app/module/correo.py:38-40 | as written, every valid address with a line break appended is still accepted |
| EmailSyntax.ValidarSintaxisEmailFull | app/module/correo.py:38-40 | accepted iff the whole lowered string is generated by the pattern's grammar |
| EmailSyntax.FullRejectsNewline | app/module/correo.py:38-40 | the whole-string check never accepts a line break |
| EmailSyntax.FullAgreesWithoutNewline | app/module/correo.py:38-40 | without a final newline, the whole-string check gives the as-written verdict |

## Left out

- Fetching, connection handling and configuration:
  - the SQL queries, the database connection and the location filter of both fetches are not modelled. The detector and the aggregator receive the fetched rows as parameters.
  - Loading the parameter and credential files is left out. The configuration is a parameter whose optional keys are `Option`s.
  - `datetime.now()` is the parameter `now`, in whole seconds.
  - `await generar_alertas()` inside the dispatcher is the parameter `alerts`, the list that call would return.
- Transport and logging:
  - `EnviarCorreoSSL` and the rest of `correo.py` (SMTP, attachments) are not modelled. A send is a `Mail` record handed to the transport. A refusal that `EnviarCorreoSSL` catches (`app/module/correo.py:107-121`) still counts as a handed-over mail, because the loop goes on. An exception it does not catch, or one from loading the credentials, is the `Fault` parameter of `Dispatch.TickUnder`.
  - The `[MAIL]` log line is not modelled.
- Alert text:
  - alert text is not formatted (the f-strings with `°C`, `{delta:+.1f}`, `{delta_min:.0f}`). An alert carries a `Message` with the numbers it embeds.
  - The HTML body takes the rendering of an alert's text as the parameter `text`, which sees the whole alert (location and message), as the source's texts name the location.
- Arithmetic:
  - temperatures are mathematical reals, not floats, so rounding in `delta_temp` is not modelled.
  - The minute gap `total_seconds() / 60` is compared as whole seconds against 600, 900 and 1200, which is equivalent for timestamps in whole seconds. Sub-second timestamps are not modelled.
  - The interval is an integer number of minutes. A fractional `intervalo_envio_min` is not modelled.
- An exception from `load_config()` (`app/module/alertas_manager.py:74`) or from `await generar_alertas()` (`app/module/alertas_manager.py:87`) ends the tick before any state change or mail. Examples are a store error, or the `TypeError` on a null latest temperature. Its effect equals a `NoAlerts` tick, and the model has no separate exit for it.
- Concurrency, the scheduling loop in `main.py`, and the global `alert_manager` instance are not modelled.
- Spikes.SpikeOf and Spikes.DetectTemperatureSpikes: these require every group to meet `LatestDefined`. Where a location's latest reading has no temperature but an earlier one does, Python raises a `TypeError`. The recent-window query selects only rows with a temperature (`app/module/database.py:156`), and `Spikes.AllPresentWellFormed` proves such rows meet the requirement; the other case is excluded rather than modelled as an error.
- Aggregation.GenerarAlertas: requires every latest reading to have a temperature. A null one makes the comparison with the thresholds raise in Python, and that case is excluded rather than modelled as an error.
- Config.SpikesEnabled and Config.EmailEnabled: Python tests these keys for truthiness, so a JSON `1` or `"false"` switches the feature on; the model types the keys as booleans and does not cover other JSON values.
- EmailSyntax.ValidarSintaxisEmail: requires ASCII input. Python's `str.lower` maps some non-ASCII characters onto ASCII letters (the Kelvin sign becomes `k`), and that Unicode case mapping is not modelled.

## Findings

| source | as written | input that shows it | evidently intended | confidence | as-written member | corrected member |
|---|---|---|---|---|---|---|
| app/module/correo.py:38-39 | `re.match` with a `$` anchor accepts an address followed by one newline | `"x@y.es\n"` is accepted | the whole string must be the address (`re.fullmatch` or `\Z`) | medium, not executed | EmailSyntax.TrailingNewlineAccepted | EmailSyntax.ValidarSintaxisEmailFull |

=== FILE: aggregation.dfy ===
/** `generar_alertas`: threshold alerts on the latest reading of each
    location, spike alerts when enabled, all sorted by priority. */
module Aggregation {
  import opened Wrappers
  import opened Alerts
  import opened Spikes
  import opened Config

  /** The sort key fallback `generar_alertas` passes to `prioridad.get`. */
  const AggregatorFallback: nat := 99

  /** Danger first, then warning; at most one alert per reading. */
  function ThresholdAlert(r: Reading, th: Thresholds): (a: Option<Alert>)
    requires r.temp.Some?
    ensures a.Some? ==> a.value.loc == r.loc
    ensures (a.Some? && a.value.level == Roja) <==> r.temp.value >= th.danger
    ensures (a.Some? && a.value.level == Amarilla) <==> th.warning <= r.temp.value < th.danger
    ensures a.None? <==> r.temp.value < th.warning && r.temp.value < th.danger
    ensures a.Some? ==> a.value.level.Roja? || a.value.level.Amarilla?
    ensures a.Some? ==> a.value.msg == if a.value.level.Roja? then TemperaturaCritica(r.temp.value)
                                       else TemperaturaElevada(r.temp.value)
  {
    var t := r.temp.value;
    if t >= th.danger then Some(Alert(r.loc, Roja, TemperaturaCritica(t)))
    else if t >= th.warning then Some(Alert(r.loc, Amarilla, TemperaturaElevada(t)))
    else None
  }

  /** Every latest reading has a temperature: the comparison with the
      thresholds has no guard for a null one. */
  predicate AllPresent(latest: seq<Reading>) {
    forall i :: 0 <= i < |latest| ==> latest[i].temp.Some?
  }

  /** Readings at or above either threshold. */
  function CountHot(latest: seq<Reading>, th: Thresholds): nat
    requires AllPresent(latest)
  {
    if latest == [] then 0
    else (if latest[0].temp.value >= th.danger || latest[0].temp.value >= th.warning then 1 else 0)
         + CountHot(latest[1..], th)
  }

  /** The first loop of `generar_alertas`. */
  function ThresholdAlerts(latest: seq<Reading>, th: Thresholds): (r: seq<Alert>)
    requires AllPresent(latest)
  {
    if latest == [] then []
    else
      var a := ThresholdAlert(latest[0], th);
      (if a.Some? then [a.value] else []) + ThresholdAlerts(latest[1..], th)
  }

  /** The threshold phase yields one alert per reading at or above a
      threshold and nothing else, never an azul one. */
  lemma {:induction false} ThresholdAlertsSpec(latest: seq<Reading>, th: Thresholds)
    requires AllPresent(latest)
    ensures |ThresholdAlerts(latest, th)| == CountHot(latest, th) <= |latest|
    ensures forall a :: a in ThresholdAlerts(latest, th) ==>
      exists i :: 0 <= i < |latest| && ThresholdAlert(latest[i], th) == Some(a)
    ensures forall i :: 0 <= i < |latest| && ThresholdAlert(latest[i], th).Some? ==>
      ThresholdAlert(latest[i], th).value in ThresholdAlerts(latest, th)
    ensures forall a :: a in ThresholdAlerts(latest, th) ==> a.level.Roja? || a.level.Amarilla?
  {
    if latest != [] {
      var rest := latest[1..];
      ThresholdAlertsSpec(rest, th);
      var r := ThresholdAlerts(latest, th);
      forall a | a in r
        ensures exists i :: 0 <= i < |latest| && ThresholdAlert(latest[i], th) == Some(a)
      {
        if ThresholdAlert(latest[0], th) != Some(a) {
          var i :| 0 <= i < |rest| && ThresholdAlert(rest[i], th) == Some(a);
          assert latest[i + 1] == rest[i];
        }
      }
      forall i | 0 <= i < |latest| && ThresholdAlert(latest[i], th).Some?
        ensures ThresholdAlert(latest[i], th).value in r
      {
        if i > 0 {
          assert latest[i] == rest[i - 1];
        }
      }
    }
  }

  /** The threshold phase appends in reading order: the alerts of a
      concatenation are the alerts of each part, in turn. */
  lemma {:induction false} ThresholdAlertsConcat(p: seq<Reading>, q: seq<Reading>, th: Thresholds)
    requires AllPresent(p) && AllPresent(q)
    ensures AllPresent(p + q)
    ensures ThresholdAlerts(p + q, th) == ThresholdAlerts(p, th) + ThresholdAlerts(q, th)
  {
    assert forall i :: 0 <= i < |p + q| ==> (p + q)[i] == if i < |p| then p[i] else q[i - |p|];
    if p != [] {
      assert (p + q)[1..] == p[1..] + q;
      ThresholdAlertsConcat(p[1..], q, th);
      var h := if ThresholdAlert(p[0], th).Some? then [ThresholdAlert(p[0], th).value] else [];
      assert h + (ThresholdAlerts(p[1..], th) + ThresholdAlerts(q, th))
          == h + ThresholdAlerts(p[1..], th) + ThresholdAlerts(q, th);
    } else {
      assert p + q == q;
    }
  }

  /** One reading contributes its own threshold alert, if any. */
  lemma ThresholdAlertsOne(r: Reading, th: Thresholds)
    requires r.temp.Some?
    ensures AllPresent([r])
    ensures ThresholdAlerts([r], th) ==
      if ThresholdAlert(r, th).Some? then [ThresholdAlert(r, th).value] else []
  {
  }

  /** `generar_alertas(location)` once both fetches have been made. */
  function GenerarAlertas(latest: seq<Reading>, recent: seq<Reading>, cfg: AlertConfig): seq<Alert>
    requires AllPresent(latest)
    requires SpikesEnabled(cfg) ==> WellFormed(recent)
  {
    var t := ThresholdAlerts(latest, cfg.thresholds);
    var all := if SpikesEnabled(cfg) then t + DetectTemperatureSpikes(recent) else t;
    SortByRank(all, AggregatorFallback)
  }

  /** The alerts before sorting: threshold alerts, then spike alerts. */
  function Combined(latest: seq<Reading>, recent: seq<Reading>, cfg: AlertConfig): seq<Alert>
    requires AllPresent(latest)
    requires SpikesEnabled(cfg) ==> WellFormed(recent)
  {
    ThresholdAlerts(latest, cfg.thresholds)
      + (if SpikesEnabled(cfg) then DetectTemperatureSpikes(recent) else [])
  }

  /** The aggregate is the threshold alerts and, only when spike detection is
      on, the spike alerts, with nothing dropped or merged; it is ordered by
      priority; and within a level the threshold alerts come first, each part
      in its own order. */
  lemma GenerarAlertasSpec(latest: seq<Reading>, recent: seq<Reading>, cfg: AlertConfig)
    requires AllPresent(latest)
    requires SpikesEnabled(cfg) ==> WellFormed(recent)
    ensures multiset(GenerarAlertas(latest, recent, cfg)) == multiset(Combined(latest, recent, cfg))
    ensures |GenerarAlertas(latest, recent, cfg)| ==
      |ThresholdAlerts(latest, cfg.thresholds)|
      + (if SpikesEnabled(cfg) then |DetectTemperatureSpikes(recent)| else 0)
    ensures SortedByRank(GenerarAlertas(latest, recent, cfg), AggregatorFallback)
    ensures forall b :: (OfBucket(GenerarAlertas(latest, recent, cfg), b) ==
      OfBucket(ThresholdAlerts(latest, cfg.thresholds), b)
      + (if SpikesEnabled(cfg) then OfBucket(DetectTemperatureSpikes(recent), b) else []))
  {
    var t := ThresholdAlerts(latest, cfg.thresholds);
    var c := Combined(latest, recent, cfg);
    if !SpikesEnabled(cfg) {
      assert c == t;
    }
    assert GenerarAlertas(latest, recent, cfg) == SortByRank(c, AggregatorFallback);
    SortByRankSpec(c, AggregatorFallback);
    forall b
      ensures OfBucket(c, b) == OfBucket(t, b)
        + (if SpikesEnabled(cfg) then OfBucket(DetectTemperatureSpikes(recent), b) else [])
    {
      if SpikesEnabled(cfg) {
        OfBucketConcat(t, DetectTemperatureSpikes(recent), b);
      } else {
        assert OfBucket(t, b) + [] == OfBucket(t, b);
      }
    }
  }

  /** With spike detection off, every alert is a threshold alert, so none is
      azul. */
  lemma NoSpikesNoAzul(latest: seq<Reading>, recent: seq<Reading>, cfg: AlertConfig)
    requires AllPresent(latest)
    requires !SpikesEnabled(cfg)
    ensures forall a :: a in GenerarAlertas(latest, recent, cfg) ==> a.level.Roja? || a.level.Amarilla?
  {
    GenerarAlertasSpec(latest, recent, cfg);
    ThresholdAlertsSpec(latest, cfg.thresholds);
    var r := GenerarAlertas(latest, recent, cfg);
    forall a | a in r
      ensures a.level.Roja? || a.level.Amarilla?
    {
      assert a in multiset(r);
    }
  }
}

=== FILE: alerts.dfy ===
/** Alerts and the stable priority sort that both the spike detector and the
    alert aggregator apply to their output. */
module Alerts {

  /** Alert severity. The service labels levels "roja", "amarilla" and "azul";
      `Other` stands for any other label, which the priority key sends to its
      fallback rank. */
  datatype Level = Roja | Amarilla | Azul | Other(name: string)

  /** The evidence an alert carries. Text rendering is left to a caller-supplied
      function; only the numbers the message embeds are kept. */
  datatype Message =
    | TemperaturaCritica(temp: real)
    | TemperaturaElevada(temp: real)
    | SubidaCritica(delta: real, seconds: int)
    | SubidaRapida(delta: real, seconds: int)
    | BajadaBrusca(delta: real, seconds: int)

  datatype Alert = Alert(loc: string, level: Level, msg: Message)

  predicate IsKnown(lv: Level) {
    lv.Roja? || lv.Amarilla? || lv.Azul?
  }

  /** The sort key `prioridad.get(nivel, fallback)`, with
      `prioridad = {"roja": 0, "amarilla": 1, "azul": 2}`. */
  function Rank(lv: Level, fallback: nat): nat {
    match lv
    case Roja => 0
    case Amarilla => 1
    case Azul => 2
    case Other(_) => fallback
  }

  /** The block a level lands in when the fallback rank exceeds 2. */
  function Bucket(lv: Level): nat {
    match lv
    case Roja => 0
    case Amarilla => 1
    case Azul => 2
    case Other(_) => 3
  }

  /** Number of alerts for location `l`. */
  function CountLoc(s: seq<Alert>, l: string): nat {
    if s == [] then 0 else (if s[0].loc == l then 1 else 0) + CountLoc(s[1..], l)
  }

  ghost predicate SortedByRank(s: seq<Alert>, fallback: nat) {
    forall i, j :: 0 <= i < j < |s| ==> Rank(s[i].level, fallback) <= Rank(s[j].level, fallback)
  }

  // ---------------------------------------------------------------------------
  // The sort as the service runs it: Python's `list.sort(key=...)` is stable,
  // and a stable sort is determined by its key, so insertion sort models it.
  // ---------------------------------------------------------------------------

  /** Inserts `a` before the first element whose rank is not smaller. */
  function InsertByRank(a: Alert, s: seq<Alert>, fallback: nat): seq<Alert> {
    if s == [] || Rank(a.level, fallback) <= Rank(s[0].level, fallback) then [a] + s
    else [s[0]] + InsertByRank(a, s[1..], fallback)
  }

  /** `alertas.sort(key=lambda x: prioridad.get(x["nivel"], fallback))`. */
  function SortByRank(s: seq<Alert>, fallback: nat): seq<Alert> {
    if s == [] then [] else InsertByRank(s[0], SortByRank(s[1..], fallback), fallback)
  }

  // ---------------------------------------------------------------------------
  // Reference definition: the alerts of each level, in input order, block after
  // block.
  // ---------------------------------------------------------------------------

  /** The alerts of `s` in block `b`, in their original order. */
  function OfBucket(s: seq<Alert>, b: nat): (r: seq<Alert>)
    ensures forall i :: 0 <= i < |r| ==> Bucket(r[i].level) == b
  {
    if s == [] then [] else (if Bucket(s[0].level) == b then [s[0]] else []) + OfBucket(s[1..], b)
  }

  function Bucketed(s: seq<Alert>): seq<Alert> {
    OfBucket(s, 0) + OfBucket(s, 1) + OfBucket(s, 2) + OfBucket(s, 3)
  }

  // ---------------------------------------------------------------------------
  // The sort equals the reference definition.
  // ---------------------------------------------------------------------------

  lemma {:induction false} InsertSkips(x: Alert, p: seq<Alert>, q: seq<Alert>, fallback: nat)
    requires forall i :: 0 <= i < |p| ==> Rank(p[i].level, fallback) < Rank(x.level, fallback)
    ensures InsertByRank(x, p + q, fallback) == p + InsertByRank(x, q, fallback)
  {
    if p != [] {
      assert (p + q)[0] == p[0];
      assert (p + q)[1..] == p[1..] + q;
      InsertSkips(x, p[1..], q, fallback);
    } else {
      assert p + q == q;
    }
  }

  lemma OfBucketCons(x: Alert, s: seq<Alert>, b: nat)
    ensures OfBucket([x] + s, b) == (if Bucket(x.level) == b then [x] else []) + OfBucket(s, b)
  {
    assert ([x] + s)[1..] == s;
  }

  lemma InsertAtBlock(x: Alert, p: seq<Alert>, q: seq<Alert>, fallback: nat)
    requires fallback > 2
    requires forall i :: 0 <= i < |p| ==> Bucket(p[i].level) < Bucket(x.level)
    requires q != [] ==> Bucket(x.level) <= Bucket(q[0].level)
    ensures InsertByRank(x, p + q, fallback) == p + ([x] + q)
  {
    forall i | 0 <= i < |p|
      ensures Rank(p[i].level, fallback) < Rank(x.level, fallback)
    {
      assert Bucket(p[i].level) < Bucket(x.level);
    }
    InsertSkips(x, p, q, fallback);
  }

  /** The blocks before block `k`, and from block `k` on. */
  function Below(s: seq<Alert>, k: nat): seq<Alert> {
    if k == 0 then [] else if k == 1 then OfBucket(s, 0)
    else if k == 2 then OfBucket(s, 0) + OfBucket(s, 1)
    else OfBucket(s, 0) + OfBucket(s, 1) + OfBucket(s, 2)
  }

  function From(s: seq<Alert>, k: nat): seq<Alert> {
    if k == 0 then OfBucket(s, 0) + OfBucket(s, 1) + OfBucket(s, 2) + OfBucket(s, 3)
    else if k == 1 then OfBucket(s, 1) + OfBucket(s, 2) + OfBucket(s, 3)
    else if k == 2 then OfBucket(s, 2) + OfBucket(s, 3)
    else OfBucket(s, 3)
  }

  /** Regrouping lemmas: the solver proves these quickly on their own, but
      not inside the bucket lemmas' larger contexts. */
  lemma Associative<T>(a: seq<T>, b: seq<T>, c: seq<T>)
    ensures a + b + c == a + (b + c)
  {
  }

  lemma SplitAt0(x: Alert, s: seq<Alert>)
    requires Bucket(x.level) == 0
    ensures Bucketed(s) == Below(s, 0) + From(s, 0)
    ensures Bucketed([x] + s) == Below(s, 0) + ([x] + From(s, 0))
  {
    OfBucketCons(x, s, 0);
    OfBucketCons(x, s, 1);
    OfBucketCons(x, s, 2);
    OfBucketCons(x, s, 3);
    var b0, b1, b2, b3 := OfBucket(s, 0), OfBucket(s, 1), OfBucket(s, 2), OfBucket(s, 3);
    assert [] + b1 == b1 && [] + b2 == b2 && [] + b3 == b3;
    assert Bucketed([x] + s) == ([x] + b0) + b1 + b2 + b3;
    Associative([x], b0, b1);
    Associative([x], b0 + b1, b2);
    Associative([x], b0 + b1 + b2, b3);
    assert [] + ([x] + From(s, 0)) == [x] + From(s, 0);
  }

  lemma Regroup1(b0: seq<Alert>, b1: seq<Alert>, b2: seq<Alert>, b3: seq<Alert>, x: Alert)
    ensures b0 + b1 + b2 + b3 == b0 + (b1 + b2 + b3)
    ensures b0 + ([x] + b1) + b2 + b3 == b0 + ([x] + (b1 + b2 + b3))
  {
  }

  lemma Regroup2(b0: seq<Alert>, b1: seq<Alert>, b2: seq<Alert>, b3: seq<Alert>, x: Alert)
    ensures b0 + b1 + b2 + b3 == (b0 + b1) + (b2 + b3)
    ensures b0 + b1 + ([x] + b2) + b3 == (b0 + b1) + ([x] + (b2 + b3))
  {
  }

  lemma SplitAt1(x: Alert, s: seq<Alert>)
    requires Bucket(x.level) == 1
    ensures Bucketed(s) == Below(s, 1) + From(s, 1)
    ensures Bucketed([x] + s) == Below(s, 1) + ([x] + From(s, 1))
  {
    OfBucketCons(x, s, 0);
    OfBucketCons(x, s, 1);
    OfBucketCons(x, s, 2);
    OfBucketCons(x, s, 3);
    var b0, b1, b2, b3 := OfBucket(s, 0), OfBucket(s, 1), OfBucket(s, 2), OfBucket(s, 3);
    assert [] + b0 == b0 && [] + b2 == b2 && [] + b3 == b3;
    assert Bucketed([x] + s) == b0 + ([x] + b1) + b2 + b3;
    Regroup1(b0, b1, b2, b3, x);
  }

  lemma SplitAt2(x: Alert, s: seq<Alert>)
    requires Bucket(x.level) == 2
    ensures Bucketed(s) == Below(s, 2) + From(s, 2)
    ensures Bucketed([x] + s) == Below(s, 2) + ([x] + From(s, 2))
  {
    OfBucketCons(x, s, 0);
    OfBucketCons(x, s, 1);
    OfBucketCons(x, s, 2);
    OfBucketCons(x, s, 3);
    var b0, b1, b2, b3 := OfBucket(s, 0), OfBucket(s, 1), OfBucket(s, 2), OfBucket(s, 3);
    assert [] + b0 == b0 && [] + b1 == b1 && [] + b3 == b3;
    assert Bucketed([x] + s) == b0 + b1 + ([x] + b2) + b3;
    Regroup2(b0, b1, b2, b3, x);
  }

  lemma SplitAt3(x: Alert, s: seq<Alert>)
    requires Bucket(x.level) == 3
    ensures Bucketed(s) == Below(s, 3) + From(s, 3)
    ensures Bucketed([x] + s) == Below(s, 3) + ([x] + From(s, 3))
  {
    OfBucketCons(x, s, 0);
    OfBucketCons(x, s, 1);
    OfBucketCons(x, s, 2);
    OfBucketCons(x, s, 3);
    var b0, b1, b2, b3 := OfBucket(s, 0), OfBucket(s, 1), OfBucket(s, 2), OfBucket(s, 3);
    assert [] + b0 == b0 && [] + b1 == b1 && [] + b2 == b2;
    assert Bucketed([x] + s) == b0 + b1 + b2 + ([x] + b3);
  }

  lemma BucketedSplits(x: Alert, s: seq<Alert>)
    ensures Bucketed(s) == Below(s, Bucket(x.level)) + From(s, Bucket(x.level))
    ensures Bucketed([x] + s) == Below(s, Bucket(x.level)) + ([x] + From(s, Bucket(x.level)))
  {
    match x.level
    case Roja => SplitAt0(x, s);
    case Amarilla => SplitAt1(x, s);
    case Azul => SplitAt2(x, s);
    case Other(_) => SplitAt3(x, s);
  }

  lemma BelowBounds(s: seq<Alert>, k: nat)
    requires k <= 3
    ensures forall i :: 0 <= i < |Below(s, k)| ==> Bucket(Below(s, k)[i].level) < k
  {
    var b0, b1, b2 := OfBucket(s, 0), OfBucket(s, 1), OfBucket(s, 2);
    var p := Below(s, k);
    forall i | 0 <= i < |p|
      ensures Bucket(p[i].level) < k
    {
      if k == 2 {
        if i < |b0| { assert p[i] == b0[i]; } else { assert p[i] == b1[i - |b0|]; }
      } else if k == 3 {
        if i < |b0| { assert p[i] == b0[i]; }
        else if i < |b0| + |b1| { assert p[i] == b1[i - |b0|]; }
        else { assert p[i] == b2[i - |b0| - |b1|]; }
      }
    }
  }

  lemma FromHead(s: seq<Alert>, k: nat)
    requires k <= 3
    ensures From(s, k) != [] ==> k <= Bucket(From(s, k)[0].level)
  {
    var b0, b1, b2, b3 := OfBucket(s, 0), OfBucket(s, 1), OfBucket(s, 2), OfBucket(s, 3);
    if k == 0 {
      if b0 != [] { assert From(s, k)[0] == b0[0]; }
      else if b1 != [] { assert From(s, k)[0] == b1[0]; }
      else if b2 != [] { assert From(s, k)[0] == b2[0]; }
      else if b3 != [] { assert From(s, k)[0] == b3[0]; }
    } else if k == 1 {
      if b1 != [] { assert From(s, k)[0] == b1[0]; }
      else if b2 != [] { assert From(s, k)[0] == b2[0]; }
      else if b3 != [] { assert From(s, k)[0] == b3[0]; }
    } else if k == 2 {
      if b2 != [] { assert From(s, k)[0] == b2[0]; }
      else if b3 != [] { assert From(s, k)[0] == b3[0]; }
    }
  }

  lemma InsertIntoBuckets(x: Alert, s: seq<Alert>, fallback: nat)
    requires fallback > 2
    ensures InsertByRank(x, Bucketed(s), fallback) == Bucketed([x] + s)
  {
    var k := Bucket(x.level);
    BucketedSplits(x, s);
    BelowBounds(s, k);
    FromHead(s, k);
    InsertAtBlock(x, Below(s, k), From(s, k), fallback);
  }

  /** Sorting by the priority key with any fallback above 2 lists the roja
      alerts, then amarilla, then azul, then all others, each block in input
      order. */
  lemma {:induction false} SortByRankIsBucketed(s: seq<Alert>, fallback: nat)
    requires fallback > 2
    ensures SortByRank(s, fallback) == Bucketed(s)
  {
    if s != [] {
      SortByRankIsBucketed(s[1..], fallback);
      InsertIntoBuckets(s[0], s[1..], fallback);
      assert [s[0]] + s[1..] == s;
    }
  }

  // ---------------------------------------------------------------------------
  // Properties of the reference definition.
  // ---------------------------------------------------------------------------

  lemma {:induction false} OfBucketConcat(a: seq<Alert>, c: seq<Alert>, b: nat)
    ensures OfBucket(a + c, b) == OfBucket(a, b) + OfBucket(c, b)
  {
    if a != [] {
      assert (a + c)[0] == a[0];
      assert (a + c)[1..] == a[1..] + c;
      OfBucketConcat(a[1..], c, b);
    } else {
      assert a + c == c;
    }
  }

  lemma {:induction false} OfBucketTwice(s: seq<Alert>, b: nat, k: nat)
    ensures OfBucket(OfBucket(s, b), k) == if b == k then OfBucket(s, b) else []
  {
    if s != [] {
      OfBucketTwice(s[1..], b, k);
      var h := if Bucket(s[0].level) == b then [s[0]] else [];
      OfBucketConcat(h, OfBucket(s[1..], b), k);
    }
  }

  /** Strictly increasing in `key`. */
  ghost predicate IncreasingBy(s: seq<Alert>, key: Alert -> int) {
    forall i, j :: 0 <= i < j < |s| ==> key(s[i]) < key(s[j])
  }

  lemma {:induction false} OfBucketMembers(s: seq<Alert>, b: nat)
    ensures forall a :: a in OfBucket(s, b) ==> a in s
  {
    if s != [] {
      OfBucketMembers(s[1..], b);
    }
  }

  /** A block keeps any strict order of the input. */
  lemma {:induction false} OfBucketIncreasing(s: seq<Alert>, key: Alert -> int, b: nat)
    requires IncreasingBy(s, key)
    ensures IncreasingBy(OfBucket(s, b), key)
  {
    if s != [] {
      var t := s[1..];
      assert IncreasingBy(t, key) by {
        forall i, j | 0 <= i < j < |t|
          ensures key(t[i]) < key(t[j])
        {
          assert t[i] == s[i + 1] && t[j] == s[j + 1];
        }
      }
      OfBucketIncreasing(t, key, b);
      if Bucket(s[0].level) == b {
        OfBucketMembers(t, b);
        var r := OfBucket(t, b);
        var c := [s[0]] + r;
        assert c == OfBucket(s, b);
        forall i, j | 0 <= i < j < |c|
          ensures key(c[i]) < key(c[j])
        {
          assert c[j] == r[j - 1];
          if i > 0 {
            assert c[i] == r[i - 1];
          } else {
            assert r[j - 1] in t;
            var m :| 0 <= m < |t| && t[m] == r[j - 1];
            assert s[m + 1] == c[j];
          }
        }
      } else {
        assert OfBucket(s, b) == OfBucket(t, b);
      }
    }
  }

  /** Prepending an alert extends its own block and leaves the others alone. */
  lemma OfBucketConsAll(x: Alert, s: seq<Alert>)
    ensures OfBucket([x] + s, Bucket(x.level)) == [x] + OfBucket(s, Bucket(x.level))
    ensures forall b :: b != Bucket(x.level) ==> OfBucket([x] + s, b) == OfBucket(s, b)
  {
    assert ([x] + s)[1..] == s;
  }

  lemma MultisetInsert(p: seq<Alert>, x: Alert, q: seq<Alert>)
    ensures multiset(p + ([x] + q)) == multiset(p + q) + multiset{x}
  {
  }

  /** The blocks hold exactly the input alerts. */
  lemma {:induction false} BucketedPermutes(s: seq<Alert>)
    ensures multiset(Bucketed(s)) == multiset(s)
  {
    if s != [] {
      var x, t := s[0], s[1..];
      var k := Bucket(x.level);
      var p, q := Below(t, k), From(t, k);
      BucketedPermutes(t);
      BucketedSplits(x, t);
      MultisetInsert(p, x, q);
      assert s == [x] + t;
      calc {
        multiset(Bucketed(s));
        multiset(p + ([x] + q));
        multiset(p + q) + multiset{x};
        multiset(t) + multiset{x};
        multiset(s);
      }
    }
  }

  lemma {:induction false} BucketsPartitionCount(s: seq<Alert>, l: string)
    ensures CountLoc(OfBucket(s, 0), l) + CountLoc(OfBucket(s, 1), l) + CountLoc(OfBucket(s, 2), l)
            + CountLoc(OfBucket(s, 3), l) == CountLoc(s, l)
  {
    if s != [] {
      var t := s[1..];
      BucketsPartitionCount(t, l);
      assert s == [s[0]] + t;
      OfBucketConsAll(s[0], t);
      var k := Bucket(s[0].level);
      CountLocConcat([s[0]], OfBucket(t, k), l);
      var h := CountLoc([s[0]], l);
      assert h == (if s[0].loc == l then 1 else 0) by {
        assert [s[0]][1..] == [];
      }
      assert CountLoc(s, l) == h + CountLoc(t, l);
      assert CountLoc(OfBucket(s, k), l) == h + CountLoc(OfBucket(t, k), l);
      // The alert joins exactly one of the four sums.
      match s[0].level
      case Roja =>
      case Amarilla =>
      case Azul =>
      case Other(_) =>
    }
  }

  lemma {:induction false} CountLocConcat(a: seq<Alert>, c: seq<Alert>, l: string)
    ensures CountLoc(a + c, l) == CountLoc(a, l) + CountLoc(c, l)
  {
    if a != [] {
      assert (a + c)[0] == a[0];
      assert (a + c)[1..] == a[1..] + c;
      CountLocConcat(a[1..], c, l);
    } else {
      assert a + c == c;
    }
  }

  lemma BucketedSorted(s: seq<Alert>, fallback: nat)
    requires fallback > 2
    ensures SortedByRank(Bucketed(s), fallback)
  {
    var r := Bucketed(s);
    var b0, b1, b2 := OfBucket(s, 0), OfBucket(s, 1), OfBucket(s, 2);
    forall i | 0 <= i < |r|
      ensures Bucket(r[i].level) == (if i < |b0| then 0 else if i < |b0| + |b1| then 1
                                     else if i < |b0| + |b1| + |b2| then 2 else 3)
    {
      assert r[i] in (if i < |b0| then b0 else if i < |b0| + |b1| then b1
                      else if i < |b0| + |b1| + |b2| then b2 else OfBucket(s, 3));
    }
  }

  lemma BucketedStable(s: seq<Alert>, b: nat)
    ensures OfBucket(Bucketed(s), b) == OfBucket(s, b)
  {
    var b0, b1, b2, b3 := OfBucket(s, 0), OfBucket(s, 1), OfBucket(s, 2), OfBucket(s, 3);
    OfBucketConcat(b0 + b1 + b2, b3, b);
    OfBucketConcat(b0 + b1, b2, b);
    OfBucketConcat(b0, b1, b);
    OfBucketTwice(s, 0, b);
    OfBucketTwice(s, 1, b);
    OfBucketTwice(s, 2, b);
    OfBucketTwice(s, 3, b);
    if b > 3 {
      OfBucketEmpty(s, b);
    }
  }

  lemma BucketedCount(s: seq<Alert>, l: string)
    ensures CountLoc(Bucketed(s), l) == CountLoc(s, l)
  {
    var b0, b1, b2, b3 := OfBucket(s, 0), OfBucket(s, 1), OfBucket(s, 2), OfBucket(s, 3);
    CountLocConcat(b0 + b1 + b2, b3, l);
    CountLocConcat(b0 + b1, b2, l);
    CountLocConcat(b0, b1, l);
    BucketsPartitionCount(s, l);
  }

  /** Everything the service relies on from `alertas.sort(key=...)`: the result
      is a permutation ordered by rank, each level keeps its input order, and
      each location keeps its number of alerts. */
  lemma SortByRankSpec(s: seq<Alert>, fallback: nat)
    requires fallback > 2
    ensures multiset(SortByRank(s, fallback)) == multiset(s)
    ensures |SortByRank(s, fallback)| == |s|
    ensures SortedByRank(SortByRank(s, fallback), fallback)
    ensures forall b :: OfBucket(SortByRank(s, fallback), b) == OfBucket(s, b)
    ensures forall l :: CountLoc(SortByRank(s, fallback), l) == CountLoc(s, l)
  {
    SortByRankIsBucketed(s, fallback);
    BucketedPermutes(s);
    assert |multiset(Bucketed(s))| == |multiset(s)|;
    BucketedSorted(s, fallback);
    forall b
      ensures OfBucket(Bucketed(s), b) == OfBucket(s, b)
    {
      BucketedStable(s, b);
    }
    forall l
      ensures CountLoc(Bucketed(s), l) == CountLoc(s, l)
    {
      BucketedCount(s, l);
    }
  }

  lemma {:induction false} OfBucketEmpty(s: seq<Alert>, b: nat)
    requires b > 3
    ensures OfBucket(s, b) == []
  {
    if s != [] {
      OfBucketEmpty(s[1..], b);
    }
  }
}

=== FILE: config.dfy ===
/** The parts of the service's parameter file that the alert pipeline reads.
    A key looked up with a default is an `Option`; a key read without one is
    required. */
module Config {
  import opened Wrappers

  /** `thresholds`: read without a default, so it must be present. */
  datatype Thresholds = Thresholds(warning: real, danger: real)

  /** `email`: every key has a default. An absent `email` section is the
      record with every key absent. */
  datatype EmailConfig = EmailConfig(
    enabled: Option<bool>,
    intervalMin: Option<int>,
    recipients: Option<seq<string>>)

  datatype AlertConfig = AlertConfig(
    thresholds: Thresholds,
    detectarSpikes: Option<bool>,
    email: EmailConfig)

  /** Minutes between dispatches when the key is absent. */
  const DefaultIntervalMin: int := 60

  /** `config.get("alertas", {}).get("detectar_spikes", False)` */
  function SpikesEnabled(cfg: AlertConfig): (on: bool)
    ensures on <==> cfg.detectarSpikes == Some(true)
  {
    cfg.detectarSpikes.GetOr(false)
  }

  /** `email_cfg.get("enabled", False)` */
  function EmailEnabled(e: EmailConfig): (on: bool)
    ensures on <==> e.enabled == Some(true)
  {
    e.enabled.GetOr(false)
  }

  /** `timedelta(minutes=email_cfg.get("intervalo_envio_min", 60))`, in seconds. */
  function IntervalSeconds(e: EmailConfig): (secs: int)
    ensures e.intervalMin.None? ==> secs == 3600
    ensures e.intervalMin.Some? ==> secs == 60 * e.intervalMin.value
  {
    60 * e.intervalMin.GetOr(DefaultIntervalMin)
  }

  /** `email_cfg.get("destinatarios", [])` */
  function Recipients(e: EmailConfig): (rs: seq<string>)
    ensures e.recipients.None? ==> rs == []
    ensures e.recipients.Some? ==> rs == e.recipients.value
  {
    e.recipients.GetOr([])
  }
}

=== FILE: dispatch.dfy ===
/** The e-mail dispatch throttle of `AlertManager`: one tick decides whether
    the current alerts are mailed, records the dispatch, and renders the
    HTML body. The clock, the alert generation and the SMTP transport are
    parameters: `now` in seconds, the alert list the tick would generate, and
    a rendering `text` of each alert's message. */
module Dispatch {
  import opened Wrappers
  import opened Alerts
  import opened Config

  /** One call of the mail transport. */
  datatype Mail = Mail(to: string, subject: string, body: string)

  /** The two attributes of the manager. */
  datatype DispatchState = DispatchState(lastAlertSent: Option<int>, ultimasAlertas: seq<Alert>)

  /** Which of the tick's exits was taken. `Aborted` is a dispatch cut short
      by an exception from the transport. */
  datatype Outcome = Disabled | NotDue | NoAlerts | Dispatched | Aborted

  datatype TickResult = TickResult(state: DispatchState, mails: seq<Mail>, outcome: Outcome)

  /** Where the transport raises, if it does: loading the SMTP credentials,
      or the send to the recipient at index `at` (a connection error that the
      sender's own handlers do not catch). Refusals the sender catches are not
      faults: it returns and the loop goes on. */
  datatype Fault = NoFault | CredentialsFail | SendFails(at: nat)

  /** The fault interrupts a dispatch to `n` recipients. */
  predicate Raises(fault: Fault, n: nat) {
    fault.CredentialsFail? || (fault.SendFails? && fault.at < n)
  }

  /** How many of `n` sends complete before the fault. */
  function Completed(fault: Fault, n: nat): nat {
    match fault
    case NoFault => n
    case CredentialsFail => 0
    case SendFails(at) => if at < n then at else n
  }

  const Subject: string := "\U{26A0}\U{FE0F} ALERTA DE TEMPERATURA EN CPD"
  const Header: string := "<h3>Alertas de Temperatura</h3><ul>"
  const Footer: string := "</ul>"

  /** A new manager: nothing sent yet. */
  function Initial(): (st: DispatchState)
    ensures st.lastAlertSent.None? && st.ultimasAlertas == []
  {
    DispatchState(None, [])
  }

  /** One list item of the body. */
  function Item(a: Alert, text: Alert -> string): string {
    "<li><strong>" + a.loc + "</strong>: " + text(a) + "</li>"
  }

  /** The items of all alerts, in order. */
  function Items(alerts: seq<Alert>, text: Alert -> string): string {
    if alerts == [] then "" else Item(alerts[0], text) + Items(alerts[1..], text)
  }

  function HtmlBody(alerts: seq<Alert>, text: Alert -> string): string {
    Header + Items(alerts, text) + Footer
  }

  /** The same mail to every recipient, in list order. */
  function MailsTo(recipients: seq<string>, body: string): (ms: seq<Mail>)
    ensures |ms| == |recipients|
    ensures forall i :: 0 <= i < |ms| ==> ms[i] == Mail(recipients[i], Subject, body)
  {
    seq(|recipients|, i requires 0 <= i < |recipients| => Mail(recipients[i], Subject, body))
  }

  /** The throttle: a dispatch is due unless one happened less than an
      interval ago. An interval exactly elapsed is due. */
  predicate Due(st: DispatchState, now: int, e: EmailConfig) {
    !(st.lastAlertSent.Some? && now - st.lastAlertSent.value < IntervalSeconds(e))
  }

  /** `enviar_alertas_si_toca` under a transport that may raise: disabled,
      not due and empty ticks change nothing and send nothing; otherwise the
      state records `now` and the alerts before any send, and the recipients
      are mailed the same subject and body in list order until the transport
      raises, if it does. */
  function TickUnder(st: DispatchState, now: int, e: EmailConfig, alerts: seq<Alert>,
                     text: Alert -> string, fault: Fault): (r: TickResult)
    ensures r.outcome == Disabled <==> e.enabled != Some(true)
    ensures r.outcome == NotDue <==>
      e.enabled == Some(true) && st.lastAlertSent.Some? && now - st.lastAlertSent.value < IntervalSeconds(e)
    ensures r.outcome == NoAlerts <==> e.enabled == Some(true) && Due(st, now, e) && alerts == []
    ensures r.outcome == Aborted <==>
      e.enabled == Some(true) && Due(st, now, e) && alerts != [] && Raises(fault, |Recipients(e)|)
    ensures !(r.outcome.Dispatched? || r.outcome.Aborted?) ==> r.state == st && r.mails == []
    ensures r.outcome.Dispatched? || r.outcome.Aborted? ==>
      && r.state == DispatchState(Some(now), alerts)
      && |r.mails| <= |Recipients(e)|
      && forall i :: 0 <= i < |r.mails| ==>
           r.mails[i] == Mail(Recipients(e)[i], Subject, HtmlBody(alerts, text))
    ensures r.outcome == Dispatched ==> |r.mails| == |Recipients(e)|
    ensures r.outcome == Aborted && fault.CredentialsFail? ==> r.mails == []
    ensures r.outcome == Aborted && fault.SendFails? ==> |r.mails| == fault.at
  {
    if !EmailEnabled(e) then TickResult(st, [], Disabled)
    else if !Due(st, now, e) then TickResult(st, [], NotDue)
    else if alerts == [] then TickResult(st, [], NoAlerts)
    else
      var rs := Recipients(e);
      var sent := MailsTo(rs[..Completed(fault, |rs|)], HtmlBody(alerts, text));
      TickResult(DispatchState(Some(now), alerts), sent,
                 if Raises(fault, |rs|) then Aborted else Dispatched)
  }

  /** One tick with a transport that never raises: a dispatch mails every
      recipient. */
  function Tick(st: DispatchState, now: int, e: EmailConfig, alerts: seq<Alert>, text: Alert -> string): (r: TickResult)
    ensures r.outcome == Disabled <==> e.enabled != Some(true)
    ensures r.outcome == NotDue <==>
      e.enabled == Some(true) && st.lastAlertSent.Some? && now - st.lastAlertSent.value < IntervalSeconds(e)
    ensures r.outcome == NoAlerts <==> e.enabled == Some(true) && Due(st, now, e) && alerts == []
    ensures r.outcome != Aborted
    ensures r.outcome != Dispatched ==> r.state == st && r.mails == []
    ensures r.outcome == Dispatched ==>
      && r.state == DispatchState(Some(now), alerts)
      && |r.mails| == |Recipients(e)|
      && forall i :: 0 <= i < |r.mails| ==>
           r.mails[i] == Mail(Recipients(e)[i], Subject, HtmlBody(alerts, text))
  {
    TickUnder(st, now, e, alerts, text, NoFault)
  }

  /** A raising transport changes only how many mails go out: the state is
      recorded all the same, the mails sent are a prefix of the full
      dispatch, and a dispatch the fault interrupts is reported aborted. */
  lemma FaultOnlyCutsMail(st: DispatchState, now: int, e: EmailConfig, alerts: seq<Alert>,
                          text: Alert -> string, fault: Fault)
    ensures TickUnder(st, now, e, alerts, text, fault).state == Tick(st, now, e, alerts, text).state
    ensures TickUnder(st, now, e, alerts, text, fault).mails <= Tick(st, now, e, alerts, text).mails
    ensures TickUnder(st, now, e, alerts, text, fault).outcome ==
      if Tick(st, now, e, alerts, text).outcome == Dispatched && Raises(fault, |Recipients(e)|)
      then Aborted else Tick(st, now, e, alerts, text).outcome
  {
  }

  /** An aborted dispatch still uses up the window: every later tick within
      the interval sends nothing. */
  lemma AbortedKeepsWindow(
    st: DispatchState, t1: int, t2: int, e: EmailConfig,
    a1: seq<Alert>, a2: seq<Alert>, text: Alert -> string, fault: Fault)
    requires TickUnder(st, t1, e, a1, text, fault).outcome == Aborted
    requires t1 <= t2 < t1 + IntervalSeconds(e)
    ensures Tick(TickUnder(st, t1, e, a1, text, fault).state, t2, e, a2, text).outcome == NotDue
    ensures Tick(TickUnder(st, t1, e, a1, text, fault).state, t2, e, a2, text).mails == []
  {
  }

  /** `proximo_envio`: the time of the last dispatch plus the interval. */
  function ProximoEnvio(st: DispatchState, e: EmailConfig): (p: Option<int>)
    ensures p.None? <==> st.lastAlertSent.None?
    ensures p.Some? ==> p.value - st.lastAlertSent.value == IntervalSeconds(e)
  {
    if st.lastAlertSent.Some? then Some(st.lastAlertSent.value + IntervalSeconds(e)) else None
  }

  /** The time `proximo_envio` reports is exactly when the throttle opens. */
  lemma ThrottleMatchesProximo(st: DispatchState, now: int, e: EmailConfig)
    ensures Due(st, now, e) <==> ProximoEnvio(st, e).None? || now >= ProximoEnvio(st, e).value
  {
  }

  /** A fresh manager reports no next dispatch, and its first enabled tick
      with alerts is a dispatch whatever the time. */
  lemma InitialAlwaysDue(now: int, e: EmailConfig, alerts: seq<Alert>, text: Alert -> string)
    requires e.enabled == Some(true) && alerts != []
    ensures ProximoEnvio(Initial(), e).None?
    ensures Tick(Initial(), now, e, alerts, text).outcome == Dispatched
  {
  }

  /** After a dispatch, no tick before the interval has elapsed sends mail
      or changes the state, whatever alerts it sees. */
  lemma OneDispatchPerWindow(
    st: DispatchState, t1: int, t2: int, e: EmailConfig,
    a1: seq<Alert>, a2: seq<Alert>, text: Alert -> string)
    requires Tick(st, t1, e, a1, text).outcome == Dispatched
    requires t1 <= t2 < t1 + IntervalSeconds(e)
    ensures Tick(Tick(st, t1, e, a1, text).state, t2, e, a2, text).mails == []
    ensures Tick(Tick(st, t1, e, a1, text).state, t2, e, a2, text).state == Tick(st, t1, e, a1, text).state
    ensures Tick(Tick(st, t1, e, a1, text).state, t2, e, a2, text).outcome == NotDue
  {
  }

  /** Once the interval has elapsed (exactly, or more), the next tick with
      alerts dispatches again, and `proximo_envio` then moves forward. */
  lemma DispatchOnceIntervalElapsed(
    st: DispatchState, t1: int, t2: int, e: EmailConfig,
    a1: seq<Alert>, a2: seq<Alert>, text: Alert -> string)
    requires Tick(st, t1, e, a1, text).outcome == Dispatched
    requires a2 != [] && t2 >= t1 + IntervalSeconds(e)
    ensures Tick(Tick(st, t1, e, a1, text).state, t2, e, a2, text).outcome == Dispatched
    ensures ProximoEnvio(Tick(st, t1, e, a1, text).state, e) == Some(t1 + IntervalSeconds(e))
    ensures ProximoEnvio(Tick(Tick(st, t1, e, a1, text).state, t2, e, a2, text).state, e)
      == Some(t2 + IntervalSeconds(e))
  {
  }

  /** A tick that finds no alerts does not use up the window: the next tick
      behaves as if it had not happened. */
  lemma EmptyTickKeepsWindow(
    st: DispatchState, t1: int, t2: int, e: EmailConfig,
    alerts: seq<Alert>, text: Alert -> string)
    ensures Tick(Tick(st, t1, e, [], text).state, t2, e, alerts, text) == Tick(st, t2, e, alerts, text)
  {
  }

  /** Items of a concatenation are the concatenated items: the body has one
      item per alert, in the alerts' order. */
  lemma {:induction false} ItemsConcat(a: seq<Alert>, b: seq<Alert>, text: Alert -> string)
    ensures Items(a + b, text) == Items(a, text) + Items(b, text)
  {
    if a == [] {
      assert a + b == b;
    } else {
      assert (a + b)[1..] == a[1..] + b;
      ItemsConcat(a[1..], b, text);
    }
  }

  lemma ItemsSnoc(alerts: seq<Alert>, i: nat, text: Alert -> string)
    requires i < |alerts|
    ensures Items(alerts[..i + 1], text) == Items(alerts[..i], text) + Item(alerts[i], text)
  {
    ItemsConcat(alerts[..i], [alerts[i]], text);
    assert Items([alerts[i]], text) == Item(alerts[i], text) + Items([], text);
    assert Item(alerts[i], text) + "" == Item(alerts[i], text);
    assert alerts[..i + 1] == alerts[..i] + [alerts[i]];
  }

  /** The body is the header, then one item per alert in order, then the
      footer. */
  lemma {:induction false} HtmlBodyItems(alerts: seq<Alert>, x: Alert, text: Alert -> string)
    ensures HtmlBody([], text) == Header + Footer
    ensures HtmlBody(alerts + [x], text) == Header + Items(alerts, text) + Item(x, text) + Footer
  {
    var ia, ix := Items(alerts, text), Item(x, text);
    ItemsConcat(alerts, [x], text);
    assert Items([x], text) == ix + Items([], text);
    assert Items([x], text) == ix;
    Associative(Header, ia, ix);
    assert HtmlBody(alerts + [x], text) == Header + (ia + ix) + Footer;
  }

  /** The body built as the source does, by appending to a string. */
  method RenderHtml(alerts: seq<Alert>, text: Alert -> string) returns (html: string)
    ensures html == HtmlBody(alerts, text)
    ensures html[..|Header|] == Header && html[|html| - |Footer|..] == Footer
  {
    html := Header;
    var i := 0;
    while i < |alerts|
      invariant 0 <= i <= |alerts|
      invariant html == Header + Items(alerts[..i], text)
    {
      ItemsSnoc(alerts, i, text);
      Associative(Header, Items(alerts[..i], text), Item(alerts[i], text));
      html := html + Item(alerts[i], text);
      i := i + 1;
    }
    assert alerts[..i] == alerts;
    html := html + Footer;
  }

  /** The manager itself, with a record of every mail handed to the
      transport. */
  class AlertManager {
    var lastAlertSent: Option<int>
    var ultimasAlertas: seq<Alert>
    ghost var sent: seq<Mail>

    function State(): DispatchState
      reads this
    {
      DispatchState(lastAlertSent, ultimasAlertas)
    }

    constructor ()
      ensures State() == Initial() && sent == []
    {
      lastAlertSent := None;
      ultimasAlertas := [];
      sent := [];
    }

    /** One tick, sending the mails one recipient at a time; the state is
        recorded before the first send, so a raising transport leaves it
        recorded. */
    method EnviarAlertasSiToca(now: int, e: EmailConfig, alerts: seq<Alert>,
                               text: Alert -> string, fault: Fault)
      returns (outcome: Outcome)
      modifies this
      ensures outcome == TickUnder(old(State()), now, e, alerts, text, fault).outcome
      ensures State() == TickUnder(old(State()), now, e, alerts, text, fault).state
      ensures sent == old(sent) + TickUnder(old(State()), now, e, alerts, text, fault).mails
    {
      if !EmailEnabled(e) {
        return Disabled;
      }
      if lastAlertSent.Some? && now - lastAlertSent.value < IntervalSeconds(e) {
        return NotDue;
      }
      if alerts == [] {
        return NoAlerts;
      }
      ultimasAlertas := alerts;
      lastAlertSent := Some(now);
      var html := RenderHtml(alerts, text);
      var aborted := SendAll(Recipients(e), html, fault);
      outcome := if aborted then Aborted else Dispatched;
    }

    /** The send loop: mails the recipients in order until the transport
        raises, and leaves the dispatch state alone. */
    method SendAll(recipients: seq<string>, html: string, fault: Fault) returns (aborted: bool)
      modifies this
      ensures aborted <==> Raises(fault, |recipients|)
      ensures sent == old(sent) + MailsTo(recipients[..Completed(fault, |recipients|)], html)
      ensures State() == old(State())
    {
      if fault.CredentialsFail? {
        assert recipients[..0] == [];
        return true;
      }
      var i := 0;
      while i < |recipients|
        invariant 0 <= i <= |recipients|
        invariant fault.SendFails? ==> i <= fault.at
        invariant State() == old(State())
        invariant sent == old(sent) + MailsTo(recipients[..i], html)
      {
        if fault.SendFails? && fault.at == i {
          return true;
        }
        sent := sent + [Mail(recipients[i], Subject, html)];
        assert MailsTo(recipients[..i + 1], html) == MailsTo(recipients[..i], html) + [Mail(recipients[i], Subject, html)];
        i := i + 1;
      }
      assert recipients[..i] == recipients;
      return false;
    }

    method ProximoEnvioNow(e: EmailConfig) returns (p: Option<int>)
      ensures p == ProximoEnvio(State(), e)
    {
      p := if lastAlertSent.Some? then Some(lastAlertSent.value + IntervalSeconds(e)) else None;
    }
  }
}

=== FILE: email.dfy ===
/** `ValidarSintaxisEmail`: the address pattern restated as a split on `@`
    and on `.`, on ASCII input lowered first. */
module EmailSyntax {

  predicate IsAscii(s: string) {
    forall i :: 0 <= i < |s| ==> s[i] < 128 as char
  }

  function LowerChar(c: char): (d: char)
    ensures 'A' <= c <= 'Z' ==> d as int == c as int + 32
    ensures !('A' <= c <= 'Z') ==> d == c
    ensures c < 128 as char ==> d < 128 as char
  {
    if 'A' <= c <= 'Z' then (c as int + 32) as char else c
  }

  /** `str.lower()` on ASCII text. */
  function Lower(s: string): (r: string)
    ensures |r| == |s|
    ensures forall i :: 0 <= i < |s| ==> r[i] == LowerChar(s[i])
  {
    seq(|s|, i requires 0 <= i < |s| => LowerChar(s[i]))
  }

  predicate IsLetter(c: char) { 'a' <= c <= 'z' }
  predicate IsDigit(c: char) { '0' <= c <= '9' }

  /** `[_a-z0-9-]` */
  predicate LocalChar(c: char) { c == '_' || IsLetter(c) || IsDigit(c) || c == '-' }
  /** `[a-z0-9-]` */
  predicate DomainChar(c: char) { IsLetter(c) || IsDigit(c) || c == '-' }

  /** `[_a-z0-9-]+` */
  predicate LocalLabel(w: string) { |w| > 0 && forall i :: 0 <= i < |w| ==> LocalChar(w[i]) }
  /** `[a-z0-9-]+` */
  predicate DomainLabel(w: string) { |w| > 0 && forall i :: 0 <= i < |w| ==> DomainChar(w[i]) }
  /** `[a-z]{2,4}` */
  predicate TopLabel(w: string) { 2 <= |w| <= 4 && forall i :: 0 <= i < |w| ==> IsLetter(w[i]) }

  /** `str.split(c)`: the pieces between occurrences of `c`, always at least one. */
  function Split(s: string, c: char): (parts: seq<string>)
    ensures |parts| >= 1
    ensures forall i :: 0 <= i < |parts| ==> c !in parts[i]
  {
    if s == [] then [""]
    else
      var rest := Split(s[1..], c);
      if s[0] == c then [""] + rest
      else [[s[0]] + rest[0]] + rest[1..]
  }

  /** `c.join(parts)` */
  function Join(parts: seq<string>, c: char): string
    requires |parts| >= 1
  {
    if |parts| == 1 then parts[0] else parts[0] + [c] + Join(parts[1..], c)
  }

  lemma {:induction false} JoinCons(x: string, parts: seq<string>, c: char)
    requires |parts| >= 1
    ensures Join([x + parts[0]] + parts[1..], c) == x + Join(parts, c)
  {
    var p := [x + parts[0]] + parts[1..];
    assert p[1..] == parts[1..];
    if |parts| > 1 {
      assert Join(p, c) == (x + parts[0]) + [c] + Join(parts[1..], c);
    }
  }

  /** Joining the pieces gives back the string. */
  lemma {:induction false} JoinSplit(s: string, c: char)
    ensures Join(Split(s, c), c) == s
  {
    if s != [] {
      var rest := Split(s[1..], c);
      JoinSplit(s[1..], c);
      if s[0] == c {
        assert ([""] + rest)[1..] == rest;
        assert Join([""] + rest, c) == "" + [c] + Join(rest, c);
        assert s == [s[0]] + s[1..];
      } else {
        JoinCons([s[0]], rest, c);
        assert s == [s[0]] + s[1..];
      }
    }
  }

  /** Splitting a string that starts with a piece free of `c`. */
  lemma {:induction false} SplitPrefix(w: string, t: string, c: char)
    requires c !in w
    ensures Split(w + t, c) == [w + Split(t, c)[0]] + Split(t, c)[1..]
  {
    if w == [] {
      assert w + t == t;
      assert w + Split(t, c)[0] == Split(t, c)[0];
      assert [Split(t, c)[0]] + Split(t, c)[1..] == Split(t, c);
    } else {
      assert (w + t)[0] == w[0];
      assert (w + t)[1..] == w[1..] + t;
      SplitPrefix(w[1..], t, c);
      var rest := Split(w[1..] + t, c);
      assert rest[0] == w[1..] + Split(t, c)[0];
      assert [w[0]] + (w[1..] + Split(t, c)[0]) == w + Split(t, c)[0];
    }
  }

  /** Splitting the join of pieces free of `c` gives back the pieces. */
  lemma {:induction false} SplitJoin(parts: seq<string>, c: char)
    requires |parts| >= 1
    requires forall i :: 0 <= i < |parts| ==> c !in parts[i]
    ensures Split(Join(parts, c), c) == parts
  {
    if |parts| == 1 {
      SplitPrefix(parts[0], "", c);
      assert parts[0] + "" == parts[0];
      assert Split("", c) == [""];
    } else {
      var t := [c] + Join(parts[1..], c);
      assert Join(parts, c) == parts[0] + t;
      SplitPrefix(parts[0], t, c);
      SplitJoin(parts[1..], c);
      assert t[1..] == Join(parts[1..], c);
      assert Split(t, c) == [""] + parts[1..];
      assert parts[0] + "" == parts[0];
    }
  }

  /** A join of pieces free of `d` has no `d`, unless `d` is the separator. */
  lemma {:induction false} JoinAvoids(parts: seq<string>, c: char, d: char)
    requires |parts| >= 1 && c != d
    requires forall i :: 0 <= i < |parts| ==> d !in parts[i]
    ensures d !in Join(parts, c)
  {
    if |parts| > 1 {
      JoinAvoids(parts[1..], c, d);
    }
  }

  /** `[_a-z0-9-]+(\.[_a-z0-9-]+)*` */
  predicate LocalLabels(ls: seq<string>) {
    |ls| >= 1 && forall i :: 0 <= i < |ls| ==> LocalLabel(ls[i])
  }

  /** `[a-z0-9-]+(\.[a-z0-9-]+)*(\.[a-z]{2,4})` */
  predicate DomainLabels(ds: seq<string>) {
    && |ds| >= 2
    && (forall i :: 0 <= i < |ds| - 1 ==> DomainLabel(ds[i]))
    && TopLabel(ds[|ds| - 1])
  }

  function Address(local: seq<string>, domain: seq<string>): string
    requires |local| >= 1 && |domain| >= 1
  {
    Join(local, '.') + "@" + Join(domain, '.')
  }

  /** The whole pattern, as a grammar: some local labels and some domain
      labels joined by dots around an `@`. */
  ghost predicate MatchesPattern(w: string) {
    exists local: seq<string>, domain: seq<string> ::
      LocalLabels(local) && DomainLabels(domain) && w == Address(local, domain)
  }

  /** The same pattern, decided by splitting: exactly two pieces around `@`,
      each of the right shape when split on `.`. */
  predicate StrictMatch(w: string) {
    var halves := Split(w, '@');
    |halves| == 2 && LocalLabels(Split(halves[0], '.')) && DomainLabels(Split(halves[1], '.'))
  }

  /** `re.match(pattern, email.lower()) is not None`. The pattern's `$` also
      matches before a final newline. */
  function ValidarSintaxisEmail(email: string): (ok: bool)
    requires IsAscii(email)
    ensures email == "" ==> !ok
  {
    var w := Lower(email);
    StrictMatch(w) || (|w| > 0 && w[|w| - 1] == '\n' && StrictMatch(w[..|w| - 1]))
  }

  lemma LabelsLackSeparators(ls: seq<string>, ds: seq<string>)
    requires LocalLabels(ls) && DomainLabels(ds)
    ensures forall i :: 0 <= i < |ls| ==> '.' !in ls[i] && '@' !in ls[i]
    ensures forall i :: 0 <= i < |ds| ==> '.' !in ds[i] && '@' !in ds[i]
  {
    forall i | 0 <= i < |ls|
      ensures '.' !in ls[i] && '@' !in ls[i]
    {
      assert forall k :: 0 <= k < |ls[i]| ==> LocalChar(ls[i][k]);
    }
    forall i | 0 <= i < |ds|
      ensures '.' !in ds[i] && '@' !in ds[i]
    {
      if i < |ds| - 1 {
        assert forall k :: 0 <= k < |ds[i]| ==> DomainChar(ds[i][k]);
      } else {
        assert forall k :: 0 <= k < |ds[i]| ==> IsLetter(ds[i][k]);
      }
    }
  }

  /** Deciding by splitting accepts exactly the strings the grammar
      generates. */
  lemma {:induction false} StrictMatchIsPattern(w: string)
    ensures StrictMatch(w) <==> MatchesPattern(w)
  {
    if StrictMatch(w) {
      var halves := Split(w, '@');
      var ls, ds := Split(halves[0], '.'), Split(halves[1], '.');
      JoinSplit(w, '@');
      JoinSplit(halves[0], '.');
      JoinSplit(halves[1], '.');
      assert halves[1..] == [halves[1]];
      assert w == Join(halves, '@') == halves[0] + ['@'] + halves[1];
      assert w == Address(ls, ds);
    }
    if MatchesPattern(w) {
      var ls, ds :| LocalLabels(ls) && DomainLabels(ds) && w == Address(ls, ds);
      LabelsLackSeparators(ls, ds);
      var jl, jd := Join(ls, '.'), Join(ds, '.');
      JoinAvoids(ls, '.', '@');
      JoinAvoids(ds, '.', '@');
      var halves := [jl, jd];
      assert halves[1..] == [jd];
      assert Join(halves, '@') == w;
      SplitJoin(halves, '@');
      SplitJoin(ls, '.');
      SplitJoin(ds, '.');
    }
  }

  /** The validator accepts exactly the lowered strings the pattern
      generates, optionally followed by one newline. */
  lemma ValidarIsPattern(email: string)
    requires IsAscii(email)
    ensures ValidarSintaxisEmail(email) <==>
      var w := Lower(email);
      MatchesPattern(w) || (|w| > 0 && w[|w| - 1] == '\n' && MatchesPattern(w[..|w| - 1]))
  {
    var w := Lower(email);
    StrictMatchIsPattern(w);
    if |w| > 0 {
      StrictMatchIsPattern(w[..|w| - 1]);
    }
  }

  /** An address has exactly one `@`. */
  predicate OneAt(s: string) {
    exists i :: 0 <= i < |s| && s[i] == '@' && forall j :: 0 <= j < |s| && s[j] == '@' ==> j == i
  }

  lemma StrictMatchOneAt(w: string)
    requires StrictMatch(w)
    ensures OneAt(w)
  {
    var halves := Split(w, '@');
    JoinSplit(w, '@');
    assert halves[1..] == [halves[1]];
    assert w == halves[0] + ['@'] + halves[1];
    var i := |halves[0]|;
    assert w[i] == '@';
    forall j | 0 <= j < |w| && j != i
      ensures w[j] != '@'
    {
      if j < i {
        assert w[j] == halves[0][j];
      } else {
        assert w[j] == halves[1][j - i - 1];
      }
    }
  }

  /** Case never matters: an address and its lowered form are judged alike. */
  lemma CaseInsensitive(email: string)
    requires IsAscii(email)
    ensures IsAscii(Lower(email))
    ensures ValidarSintaxisEmail(Lower(email)) == ValidarSintaxisEmail(email)
  {
    assert Lower(Lower(email)) == Lower(email);
  }

  /** Every accepted address has exactly one `@`, possibly before a final
      newline. */
  lemma AcceptedHasOneAt(email: string)
    requires IsAscii(email) && ValidarSintaxisEmail(email)
    ensures OneAt(email)
  {
    var w := Lower(email);
    var v := if StrictMatch(w) then w else w[..|w| - 1];
    StrictMatchOneAt(v);
    var i :| 0 <= i < |v| && v[i] == '@' && forall j :: 0 <= j < |v| && v[j] == '@' ==> j == i;
    assert email[i] == '@';
    forall j | 0 <= j < |email| && j != i
      ensures email[j] != '@'
    {
      if j < |v| {
        assert v[j] == w[j];
      } else {
        assert w[j] == '\n';
      }
    }
  }

  /** `[_a-z0-9.@-]`: every character the pattern can match. */
  predicate PatternChar(c: char) { LocalChar(c) || c == '.' || c == '@' }

  lemma {:induction false} JoinChars(parts: seq<string>, c: char)
    requires |parts| >= 1 && PatternChar(c)
    requires forall k, j :: 0 <= k < |parts| && 0 <= j < |parts[k]| ==> PatternChar(parts[k][j])
    ensures forall i :: 0 <= i < |Join(parts, c)| ==> PatternChar(Join(parts, c)[i])
  {
    if |parts| > 1 {
      JoinChars(parts[1..], c);
      var head, tail := parts[0], Join(parts[1..], c);
      assert Join(parts, c) == head + [c] + tail;
      forall i | 0 <= i < |Join(parts, c)|
        ensures PatternChar(Join(parts, c)[i])
      {
        if i < |head| {
          assert Join(parts, c)[i] == parts[0][i];
        } else if i > |head| {
          assert Join(parts, c)[i] == tail[i - |head| - 1];
        }
      }
    }
  }

  /** A string of the pattern uses only the pattern's characters. */
  lemma StrictMatchCharset(w: string)
    requires StrictMatch(w)
    ensures forall i :: 0 <= i < |w| ==> PatternChar(w[i])
  {
    StrictMatchIsPattern(w);
    var ls, ds :| LocalLabels(ls) && DomainLabels(ds) && w == Address(ls, ds);
    forall k, j | 0 <= k < |ds| && 0 <= j < |ds[k]|
      ensures PatternChar(ds[k][j])
    {
      if k < |ds| - 1 {
        assert DomainLabel(ds[k]);
      } else {
        assert TopLabel(ds[k]);
      }
    }
    forall k, j | 0 <= k < |ls| && 0 <= j < |ls[k]|
      ensures PatternChar(ls[k][j])
    {
      assert LocalLabel(ls[k]);
    }
    JoinChars(ls, '.');
    JoinChars(ds, '.');
    var jl, jd := Join(ls, '.'), Join(ds, '.');
    forall i | 0 <= i < |w|
      ensures PatternChar(w[i])
    {
      if i < |jl| {
        assert w[i] == jl[i];
      } else if i > |jl| {
        assert w[i] == jd[i - |jl| - 1];
      }
    }
  }

  /** After lowering, an accepted address has only `[_a-z0-9.@-]`
      characters, save one final newline. */
  lemma AcceptedCharset(email: string)
    requires IsAscii(email) && ValidarSintaxisEmail(email)
    ensures forall i :: 0 <= i < |email| ==>
      PatternChar(Lower(email)[i]) || (i == |email| - 1 && email[i] == '\n')
  {
    var w := Lower(email);
    if StrictMatch(w) {
      StrictMatchCharset(w);
    } else {
      var v := w[..|w| - 1];
      StrictMatchCharset(v);
      forall i | 0 <= i < |email|
        ensures PatternChar(w[i]) || (i == |email| - 1 && email[i] == '\n')
      {
        if i < |v| {
          assert w[i] == v[i];
        }
      }
    }
  }

  /** The evidently intended validator: the whole lowered string must be an
      address, as `re.fullmatch` or a `\Z` anchor would demand. */
  function ValidarSintaxisEmailFull(email: string): (ok: bool)
    requires IsAscii(email)
    ensures ok <==> MatchesPattern(Lower(email))
  {
    StrictMatchIsPattern(Lower(email));
    StrictMatch(Lower(email))
  }

  /** The intended validator never accepts a line break. */
  lemma FullRejectsNewline(email: string)
    requires IsAscii(email) && ValidarSintaxisEmailFull(email)
    ensures forall i :: 0 <= i < |email| ==> email[i] != '\n'
  {
    StrictMatchCharset(Lower(email));
    forall i | 0 <= i < |email|
      ensures email[i] != '\n'
    {
      assert Lower(email)[i] == LowerChar(email[i]);
    }
  }

  /** As written, every address the intended validator accepts is accepted
      with a line break appended too, and the intended validator accepts
      exactly the as-written verdicts on strings without a final newline. */
  lemma TrailingNewlineAccepted(email: string)
    requires IsAscii(email) && ValidarSintaxisEmailFull(email)
    ensures IsAscii(email + "\n")
    ensures ValidarSintaxisEmail(email + "\n")
    ensures !ValidarSintaxisEmailFull(email + "\n")
  {
    var w, e := Lower(email), email + "\n";
    var we := Lower(e);
    assert we[..|we| - 1] == w;
    assert we[|we| - 1] == '\n';
    if StrictMatch(we) {
      StrictMatchCharset(we);
    }
  }

  /** Without a final newline the two validators agree. */
  lemma FullAgreesWithoutNewline(email: string)
    requires IsAscii(email)
    requires |email| == 0 || email[|email| - 1] != '\n'
    ensures ValidarSintaxisEmailFull(email) == ValidarSintaxisEmail(email)
  {
    if |email| > 0 {
      assert Lower(email)[|email| - 1] == LowerChar(email[|email| - 1]);
    }
  }

  /** Lowering leaves lower-case text alone. */
  lemma LowerFixes(s: string)
    requires forall i :: 0 <= i < |s| ==> !('A' <= s[i] <= 'Z')
    ensures Lower(s) == s
  {
  }

  /** Two pieces joined by `@`, each split by `.` as given. */
  lemma SplitsAs(w: string, local: seq<string>, domain: seq<string>)
    requires |local| >= 1 && |domain| >= 1
    requires forall i :: 0 <= i < |local| ==> '.' !in local[i] && '@' !in local[i]
    requires forall i :: 0 <= i < |domain| ==> '.' !in domain[i] && '@' !in domain[i]
    requires w == Address(local, domain)
    ensures StrictMatch(w) <==> LocalLabels(local) && DomainLabels(domain)
  {
    var jl, jd := Join(local, '.'), Join(domain, '.');
    JoinAvoids(local, '.', '@');
    JoinAvoids(domain, '.', '@');
    assert [jl, jd][1..] == [jd];
    assert Join([jl, jd], '@') == w;
    SplitJoin([jl, jd], '@');
    SplitJoin(local, '.');
    SplitJoin(domain, '.');
  }

  /** Labels free of both separators. */
  predicate Unseparated(ls: seq<string>) {
    forall i :: 0 <= i < |ls| ==> '.' !in ls[i] && '@' !in ls[i]
  }

  /** The verdict on an address whose lowered form is given as labels. */
  lemma Judged(email: string, local: seq<string>, domain: seq<string>)
    requires IsAscii(email) && |email| > 0 && email[|email| - 1] != '\n'
    requires |local| >= 1 && |domain| >= 1 && Unseparated(local) && Unseparated(domain)
    requires Lower(email) == Address(local, domain)
    ensures ValidarSintaxisEmail(email) <==> LocalLabels(local) && DomainLabels(domain)
  {
    SplitsAs(Lower(email), local, domain);
  }

  /** The verdict on an address given as labels followed by one newline. */
  lemma JudgedWithNewline(email: string, local: seq<string>, domain: seq<string>)
    requires IsAscii(email) && |email| > 0
    requires |local| >= 1 && |domain| >= 1 && Unseparated(local) && Unseparated(domain)
    requires Lower(email) == Address(local, domain) + "\n"
    ensures ValidarSintaxisEmail(email) <==> LocalLabels(local) && DomainLabels(domain)
  {
    var w := Lower(email);
    assert w[..|w| - 1] == Address(local, domain);
    SplitsAs(w[..|w| - 1], local, domain);
    assert w[|w| - 1] == '\n';
    if StrictMatch(w) {
      StrictMatchCharset(w);
    }
  }

  lemma PlainLowered()
    ensures IsAscii("a.b@c.de") && "a.b@c.de"[7] != '\n'
    ensures Lower("a.b@c.de") == Address(["a", "b"], ["c", "de"])
  {
    LowerFixes("a.b@c.de");
  }

  /** A plain address is accepted. */
  lemma AcceptsPlain()
    ensures ValidarSintaxisEmail("a.b@c.de")
  {
    PlainLowered();
    assert Unseparated(["a", "b"]) && Unseparated(["c", "de"]);
    assert LocalLabels(["a", "b"]) && DomainLabels(["c", "de"]);
    Judged("a.b@c.de", ["a", "b"], ["c", "de"]);
  }

  lemma UpperCaseLowered()
    ensures IsAscii("A@B.CO") && "A@B.CO"[5] != '\n'
    ensures Lower("A@B.CO") == Address(["a"], ["b", "co"])
  {
  }

  /** Upper case is accepted. */
  lemma AcceptsUpperCase()
    ensures ValidarSintaxisEmail("A@B.CO")
  {
    UpperCaseLowered();
    assert Unseparated(["a"]) && Unseparated(["b", "co"]);
    assert LocalLabels(["a"]) && DomainLabels(["b", "co"]);
    Judged("A@B.CO", ["a"], ["b", "co"]);
  }

  lemma FinalNewlineLowered()
    ensures IsAscii("x@y.es\n")
    ensures Lower("x@y.es\n") == Address(["x"], ["y", "es"]) + "\n"
  {
    LowerFixes("x@y.es\n");
  }

  /** One final newline is accepted. */
  lemma AcceptsFinalNewline()
    ensures ValidarSintaxisEmail("x@y.es\n")
  {
    FinalNewlineLowered();
    assert Unseparated(["x"]) && Unseparated(["y", "es"]);
    assert LocalLabels(["x"]) && DomainLabels(["y", "es"]);
    JudgedWithNewline("x@y.es\n", ["x"], ["y", "es"]);
  }

  /** Two final newlines are not. */
  lemma RejectsTwoNewlines()
    ensures !ValidarSintaxisEmail("x@y.es\n\n")
  {
    LowerFixes("x@y.es\n\n");
    JudgedWithNewline("x@y.es\n\n", ["x"], ["y", "es\n"]);
    assert !IsLetter("es\n"[2]);
  }

  /** A top-level domain of one letter. */
  lemma RejectsShortTop()
    ensures !ValidarSintaxisEmail("a@b.c")
  {
    LowerFixes("a@b.c");
    Judged("a@b.c", ["a"], ["b", "c"]);
  }

  /** A top-level domain of five letters. */
  lemma RejectsLongTop()
    ensures !ValidarSintaxisEmail("a@b.comxx")
  {
    LowerFixes("a@b.comxx");
    Judged("a@b.comxx", ["a"], ["b", "comxx"]);
  }

  /** A domain of one label. */
  lemma RejectsSingleLabelDomain()
    ensures !ValidarSintaxisEmail("a@com")
  {
    LowerFixes("a@com");
    Judged("a@com", ["a"], ["com"]);
  }

  /** A leading dot. */
  lemma RejectsLeadingDot()
    ensures !ValidarSintaxisEmail(".a@c.com")
  {
    LowerFixes(".a@c.com");
    Judged(".a@c.com", ["", "a"], ["c", "com"]);
  }

  /** A doubled dot. */
  lemma RejectsDoubledDot()
    ensures !ValidarSintaxisEmail("a..b@c.com")
  {
    LowerFixes("a..b@c.com");
    Judged("a..b@c.com", ["a", "", "b"], ["c", "com"]);
  }

  /** Two `@`. */
  lemma RejectsTwoAts()
    ensures !ValidarSintaxisEmail("a@b@c.com")
  {
    var w := "a@b@c.com";
    LowerFixes(w);
    assert w[1] == '@' && w[3] == '@';
    if ValidarSintaxisEmail(w) {
      AcceptedHasOneAt(w);
      assert false;
    }
  }
}

=== FILE: spikes.dfy ===
/** The spike detector: the decision logic of `detect_temperature_spikes`
    applied to the rows the recent-window query returns. */
module Spikes {
  import opened Wrappers
  import opened Alerts

  /** One fetched row: location, timestamp in seconds, and temperature, which
      is null for a sensor fault. */
  datatype Reading = Reading(loc: string, ts: int, temp: Option<real>)

  /** A spike counts only against a reference at most 20 minutes old. */
  const MaxReferenceAge: int := 20 * 60
  /** Rises are flagged within 10 minutes. */
  const RiseWindow: int := 10 * 60
  /** Drops are flagged within 15 minutes. */
  const DropWindow: int := 15 * 60

  /** The sort key fallback the detector passes to `prioridad.get`. */
  const DetectorFallback: nat := 9

  // ---------------------------------------------------------------------------
  // Grouping by location
  // ---------------------------------------------------------------------------

  /** Position of the first row of location `l`, or `|rows|` when there is none. */
  function FirstIndex(rows: seq<Reading>, l: string): (i: nat)
    ensures i <= |rows|
    ensures i < |rows| ==> rows[i].loc == l
    ensures forall k :: 0 <= k < i ==> rows[k].loc != l
  {
    if rows == [] then 0 else if rows[0].loc == l then 0 else 1 + FirstIndex(rows[1..], l)
  }

  lemma FirstIndexOfPrefix(rows: seq<Reading>, l: string)
    requires rows != []
    ensures var p := rows[..|rows| - 1];
      FirstIndex(p, l) < |p| ==> FirstIndex(rows, l) == FirstIndex(p, l)
    ensures var p := rows[..|rows| - 1];
      FirstIndex(p, l) == |p| && rows[|rows| - 1].loc == l ==> FirstIndex(rows, l) == |p|
    ensures var p := rows[..|rows| - 1];
      FirstIndex(p, l) == |p| && rows[|rows| - 1].loc != l ==> FirstIndex(rows, l) == |rows|
  {
    var p := rows[..|rows| - 1];
    var i, j := FirstIndex(p, l), FirstIndex(rows, l);
    if i < |p| {
      assert rows[i] == p[i];
      assert !(j < i) && !(i < j);
    } else if rows[|rows| - 1].loc == l {
      assert forall k :: 0 <= k < |p| ==> rows[k] == p[k];
      assert !(j < |p|) && !(|p| < j);
    } else {
      assert forall k :: 0 <= k < |p| ==> rows[k] == p[k];
    }
  }

  /** How first appearances change when one row is appended. */
  lemma FirstIndexExtend(rows: seq<Reading>)
    requires rows != []
    ensures forall m :: FirstIndex(rows[..|rows| - 1], m) < |rows| - 1 ==>
      FirstIndex(rows, m) == FirstIndex(rows[..|rows| - 1], m)
    ensures forall m :: FirstIndex(rows[..|rows| - 1], m) == |rows| - 1 && m != rows[|rows| - 1].loc ==>
      FirstIndex(rows, m) == |rows|
    ensures FirstIndex(rows[..|rows| - 1], rows[|rows| - 1].loc) == |rows| - 1 ==>
      FirstIndex(rows, rows[|rows| - 1].loc) == |rows| - 1
  {
    forall m {
      FirstIndexOfPrefix(rows, m);
    }
  }

  /** The keys of the grouping dictionary in insertion order: each location
      of `rows` once, in order of first appearance. */
  function Locations(rows: seq<Reading>): (locs: seq<string>)
    ensures forall l :: l in locs <==> FirstIndex(rows, l) < |rows|
    ensures forall i, j :: 0 <= i < j < |locs| ==> FirstIndex(rows, locs[i]) < FirstIndex(rows, locs[j])
  {
    if rows == [] then []
    else
      var prev := Locations(rows[..|rows| - 1]);
      var l := rows[|rows| - 1].loc;
      FirstIndexExtend(rows);
      if l in prev then prev else prev + [l]
  }

  /** The rows of location `l`, in fetch order. */
  function Group(rows: seq<Reading>, l: string): (g: seq<Reading>)
    ensures forall i :: 0 <= i < |g| ==> g[i].loc == l
    ensures forall r :: r in g <==> r in rows && r.loc == l
  {
    if rows == [] then []
    else (if rows[0].loc == l then [rows[0]] else []) + Group(rows[1..], l)
  }

  /** Grouping row by row, as `datos.setdefault(loc, []).append(r)` does:
      appending a row extends its own location's group by that row and leaves
      every other group as it was. With `Group([], l) == []` this fixes every
      group, in fetch order. */
  lemma {:induction false} GroupAppend(rows: seq<Reading>, x: Reading, l: string)
    ensures Group(rows + [x], l) == Group(rows, l) + (if x.loc == l then [x] else [])
  {
    if rows == [] {
      assert [] + [x] == [x];
      assert [x][1..] == [];
    } else {
      assert (rows + [x])[1..] == rows[1..] + [x];
      GroupAppend(rows[1..], x, l);
    }
  }

  /** A group keeps every row of its location as often as it was fetched,
      duplicates included, and no other row. */
  lemma {:induction false} GroupMultiset(rows: seq<Reading>, l: string)
    ensures forall r :: multiset(Group(rows, l))[r] == if r.loc == l then multiset(rows)[r] else 0
  {
    if rows != [] {
      GroupMultiset(rows[1..], l);
      assert rows == [rows[0]] + rows[1..];
    }
  }

  // ---------------------------------------------------------------------------
  // Sorting a group by timestamp
  // ---------------------------------------------------------------------------

  ghost predicate SortedByTime(s: seq<Reading>) {
    forall i, j :: 0 <= i < j < |s| ==> s[i].ts <= s[j].ts
  }

  lemma SortedTail(s: seq<Reading>)
    requires SortedByTime(s) && s != []
    ensures SortedByTime(s[1..])
    ensures forall y :: y in s[1..] ==> s[0].ts <= y.ts
  {
    forall y | y in s[1..]
      ensures s[0].ts <= y.ts
    {
      var m :| 0 <= m < |s| - 1 && s[1..][m] == y;
      assert s[m + 1] == y;
    }
  }

  lemma SortedCons(h: Reading, t: seq<Reading>)
    requires SortedByTime(t)
    requires forall y :: y in t ==> h.ts <= y.ts
    ensures SortedByTime([h] + t)
  {
    var c := [h] + t;
    forall i, j | 0 <= i < j < |c|
      ensures c[i].ts <= c[j].ts
    {
      assert c[j] == t[j - 1];
      if i > 0 {
        assert c[i] == t[i - 1];
      } else {
        assert t[j - 1] in t;
      }
    }
  }

  /** Inserts `x` before the first reading that is not older. */
  function InsertByTime(x: Reading, s: seq<Reading>): (r: seq<Reading>)
    requires SortedByTime(s)
    ensures |r| == |s| + 1
    ensures forall y :: y in r <==> y == x || y in s
    ensures SortedByTime(r)
    ensures multiset(r) == multiset(s) + multiset{x}
  {
    if s == [] then [x]
    else if x.ts <= s[0].ts then
      SortedTail(s);
      SortedCons(x, s);
      [x] + s
    else
      SortedTail(s);
      var t := InsertByTime(x, s[1..]);
      SortedCons(s[0], t);
      assert s == [s[0]] + s[1..];
      [s[0]] + t
  }

  /** `lecturas.sort(key=lambda x: x["fecha_hora"])`: a stable sort by timestamp. */
  function SortByTime(s: seq<Reading>): (r: seq<Reading>)
    ensures SortedByTime(r)
    ensures multiset(r) == multiset(s)
    ensures |r| == |s|
  {
    if s == [] then []
    else
      assert s == [s[0]] + s[1..];
      InsertByTime(s[0], SortByTime(s[1..]))
  }

  /** The readings of `s` taken at time `t`, in order. */
  function AtTime(s: seq<Reading>, t: int): seq<Reading> {
    if s == [] then [] else (if s[0].ts == t then [s[0]] else []) + AtTime(s[1..], t)
  }

  lemma AtTimeCons(h: Reading, rest: seq<Reading>, t: int)
    ensures AtTime([h] + rest, t) == (if h.ts == t then [h] else []) + AtTime(rest, t)
  {
    assert ([h] + rest)[1..] == rest;
  }

  /** An older reading moves ahead of `x` without disturbing the readings
      of any one time. */
  lemma OlderFirst(h: Reading, x: Reading, rest: seq<Reading>, tail: seq<Reading>, t: int)
    requires h.ts < x.ts
    requires AtTime(rest, t) == (if x.ts == t then [x] else []) + AtTime(tail, t)
    ensures AtTime([h] + rest, t) == (if x.ts == t then [x] else []) + AtTime([h] + tail, t)
  {
    AtTimeCons(h, rest, t);
    AtTimeCons(h, tail, t);
    var hx := if x.ts == t then [x] else [];
    var h0 := if h.ts == t then [h] else [];
    var a := AtTime(tail, t);
    assert hx == [] || h0 == [];
    assert h0 + (hx + a) == hx + (h0 + a);
  }

  /** The recursive case of the insertion: `x` goes past the older head. */
  lemma InsertPastHead(x: Reading, s: seq<Reading>, t: int)
    requires SortedByTime(s) && s != [] && s[0].ts < x.ts
    requires SortedByTime(s[1..])
    requires AtTime(InsertByTime(x, s[1..]), t) == (if x.ts == t then [x] else []) + AtTime(s[1..], t)
    ensures AtTime(InsertByTime(x, s), t) == (if x.ts == t then [x] else []) + AtTime(s, t)
  {
    OlderFirst(s[0], x, InsertByTime(x, s[1..]), s[1..], t);
    assert [s[0]] + s[1..] == s;
  }

  lemma {:induction false} InsertByTimeStable(x: Reading, s: seq<Reading>, t: int)
    requires SortedByTime(s)
    ensures AtTime(InsertByTime(x, s), t) == (if x.ts == t then [x] else []) + AtTime(s, t)
  {
    if s == [] {
      AtTimeCons(x, [], t);
    } else if x.ts <= s[0].ts {
      AtTimeCons(x, s, t);
    } else {
      SortedTail(s);
      InsertByTimeStable(x, s[1..], t);
      InsertPastHead(x, s, t);
    }
  }

  /** The time sort is stable: the readings of any one timestamp keep their
      input order, so a tie at the second-latest time is broken by fetch
      order, as Python's `list.sort` does. */
  lemma {:induction false} SortByTimeStable(s: seq<Reading>, t: int)
    ensures AtTime(SortByTime(s), t) == AtTime(s, t)
  {
    if s != [] {
      SortByTimeStable(s[1..], t);
      InsertByTimeStable(s[0], SortByTime(s[1..]), t);
    }
  }

  // ---------------------------------------------------------------------------
  // One location
  // ---------------------------------------------------------------------------

  /** The backward scan: the highest index at or below `i` whose reading has a
      temperature. */
  function NearestPresent(s: seq<Reading>, i: int): (j: Option<nat>)
    requires -1 <= i < |s|
    ensures j.Some? ==> j.value <= i && s[j.value].temp.Some?
    ensures j.Some? ==> forall k :: j.value < k <= i ==> s[k].temp.None?
    ensures j.None? ==> forall k :: 0 <= k <= i ==> s[k].temp.None?
    decreases i + 1
  {
    if i < 0 then None
    else if s[i].temp.Some? then Some(i)
    else NearestPresent(s, i - 1)
  }

  /** `j` is the reference of the time-sorted group `s`: the nearest reading
      before the latest one that has a temperature. */
  ghost predicate IsReference(s: seq<Reading>, j: int) {
    && 0 <= j < |s| - 1
    && s[j].temp.Some?
    && forall k :: j < k < |s| - 1 ==> s[k].temp.None?
  }

  /** The group can be processed without error: the subtraction of the two
      temperatures raises when the latest reading has none but an earlier
      one does. The recent-window query only returns rows with a temperature,
      which meets this for every group. */
  predicate LatestDefined(g: seq<Reading>) {
    |g| < 2 ||
    var s := SortByTime(g);
    NearestPresent(s, |s| - 2).None? || s[|s| - 1].temp.Some?
  }

  /** The three rules, first match wins, all bounds inclusive. */
  function Classify(loc: string, delta: real, secs: int): (a: Option<Alert>)
    ensures a.Some? ==> a.value.loc == loc
    ensures (a.Some? && a.value.level == Roja) <==> delta >= 4.0 && secs <= RiseWindow
    ensures (a.Some? && a.value.level == Amarilla) <==> 2.5 <= delta < 4.0 && secs <= RiseWindow
    ensures (a.Some? && a.value.level == Azul) <==> delta <= -5.0 && secs <= DropWindow
    ensures a.None? <==> !(delta >= 2.5 && secs <= RiseWindow) && !(delta <= -5.0 && secs <= DropWindow)
    ensures a.Some? ==> && !a.value.msg.TemperaturaCritica? && !a.value.msg.TemperaturaElevada?
                        && a.value.msg.delta == delta && a.value.msg.seconds == secs
  {
    if delta >= 4.0 && secs <= RiseWindow then Some(Alert(loc, Roja, SubidaCritica(delta, secs)))
    else if delta >= 2.5 && secs <= RiseWindow then Some(Alert(loc, Amarilla, SubidaRapida(delta, secs)))
    else if delta <= -5.0 && secs <= DropWindow then Some(Alert(loc, Azul, BajadaBrusca(delta, secs)))
    else None
  }

  /** The latest reading against its reference: no alert for a non-positive
      gap or one over 20 minutes, otherwise the three rules. */
  function Compare(loc: string, ultima: Reading, anterior: Reading): (a: Option<Alert>)
    requires ultima.temp.Some? && anterior.temp.Some?
    ensures var delta, secs := ultima.temp.value - anterior.temp.value, ultima.ts - anterior.ts;
      && (a.Some? ==> a.value.loc == loc && IsKnown(a.value.level) && 0 < secs <= MaxReferenceAge)
      && ((a.Some? && a.value.level == Roja) <==> 0 < secs <= RiseWindow && delta >= 4.0)
      && ((a.Some? && a.value.level == Amarilla) <==> 0 < secs <= RiseWindow && 2.5 <= delta < 4.0)
      && ((a.Some? && a.value.level == Azul) <==> 0 < secs <= DropWindow && delta <= -5.0)
      && (a.Some? ==> && !a.value.msg.TemperaturaCritica? && !a.value.msg.TemperaturaElevada?
                      && a.value.msg.delta == delta && a.value.msg.seconds == secs)
  {
    var secs := ultima.ts - anterior.ts;
    if secs <= 0 || secs > MaxReferenceAge then None
    else Classify(loc, ultima.temp.value - anterior.temp.value, secs)
  }

  /** The decision for a group already sorted by timestamp: the latest
      reading against the reference found by the backward scan. */
  function SpikeOfSorted(loc: string, s: seq<Reading>): (a: Option<Alert>)
    requires |s| >= 2
    requires NearestPresent(s, |s| - 2).None? || s[|s| - 1].temp.Some?
    ensures a.Some? ==> a.value.loc == loc && IsKnown(a.value.level)
  {
    match NearestPresent(s, |s| - 2)
    case None => None
    case Some(j) => Compare(loc, s[|s| - 1], s[j])
  }

  /** The alert, if any, for one location's group of readings. */
  function SpikeOf(loc: string, g: seq<Reading>): (a: Option<Alert>)
    requires LatestDefined(g)
    ensures |g| < 2 ==> a.None?
    ensures a.Some? ==> a.value.loc == loc && IsKnown(a.value.level)
  {
    if |g| < 2 then None else SpikeOfSorted(loc, SortByTime(g))
  }

  /** The backward scan finds exactly the reference. */
  lemma ScanFindsReference(s: seq<Reading>, j: int)
    requires |s| >= 2
    ensures IsReference(s, j) <==> NearestPresent(s, |s| - 2) == Some(j)
  {
  }

  /** With a reference reading, a group yields the comparison of its latest
      reading, in timestamp order, with that reference. */
  lemma SpikeOfReference(loc: string, g: seq<Reading>, j: int)
    requires LatestDefined(g) && |g| >= 2
    requires IsReference(SortByTime(g), j)
    ensures SortByTime(g)[|g| - 1].temp.Some?
    ensures SpikeOf(loc, g) == Compare(loc, SortByTime(g)[|g| - 1], SortByTime(g)[j])
  {
    ScanFindsReference(SortByTime(g), j);
  }

  lemma {:induction false} NoneBeforeMeansNone(s: seq<Reading>, i: int)
    requires -1 <= i < |s|
    requires forall k :: 0 <= k <= i ==> s[k].temp.None?
    ensures NearestPresent(s, i).None?
    decreases i + 1
  {
    if i >= 0 {
      NoneBeforeMeansNone(s, i - 1);
    }
  }

  /** Without a reading that has a temperature before the latest one, the
      location is skipped. */
  lemma SpikeOfNoReference(loc: string, g: seq<Reading>)
    requires LatestDefined(g) && |g| >= 2
    requires forall k :: 0 <= k < |g| - 1 ==> SortByTime(g)[k].temp.None?
    ensures SpikeOf(loc, g).None?
  {
    var s := SortByTime(g);
    NoneBeforeMeansNone(s, |s| - 2);
  }

  // ---------------------------------------------------------------------------
  // All locations
  // ---------------------------------------------------------------------------

  /** Every group of `rows` can be processed without error. */
  ghost predicate WellFormed(rows: seq<Reading>) {
    forall l :: LatestDefined(Group(rows, l))
  }
  /** The rows of the recent-window query all carry a temperature, and such
      rows can always be processed. */
  lemma AllPresentWellFormed(rows: seq<Reading>)
    requires forall i :: 0 <= i < |rows| ==> rows[i].temp.Some?
    ensures WellFormed(rows)
  {
    forall l
      ensures LatestDefined(Group(rows, l))
    {
      var g := Group(rows, l);
      if |g| >= 2 {
        var s := SortByTime(g);
        assert s[|s| - 1] in multiset(s);
        assert s[|s| - 1] in g;
      }
    }
  }

  /** The alert for location `l`, if any. */
  function SpikeFor(rows: seq<Reading>, l: string): Option<Alert>
    requires WellFormed(rows)
  {
    SpikeOf(l, Group(rows, l))
  }

  /** The decision of each location of `locs`, in that order. */
  function SpikesAt(rows: seq<Reading>, locs: seq<string>): (os: seq<Option<Alert>>)
    requires WellFormed(rows)
    ensures |os| == |locs|
    ensures forall i :: 0 <= i < |locs| ==> os[i] == SpikeFor(rows, locs[i])
  {
    seq(|locs|, i requires 0 <= i < |locs| => SpikeFor(rows, locs[i]))
  }

  /** The alerts present among `os`, in order. */
  function Present(os: seq<Option<Alert>>): seq<Alert> {
    if os == [] then [] else (if os[0].Some? then [os[0].value] else []) + Present(os[1..])
  }

  /** The alerts of the locations `locs`, in that order. */
  function CollectSpikes(rows: seq<Reading>, locs: seq<string>): seq<Alert>
    requires WellFormed(rows)
  {
    Present(SpikesAt(rows, locs))
  }

  /** `detect_temperature_spikes` after the fetch. */
  function DetectTemperatureSpikes(rows: seq<Reading>): seq<Alert>
    requires WellFormed(rows)
  {
    if rows == [] then []
    else SortByRank(CollectSpikes(rows, Locations(rows)), DetectorFallback)
  }

  // ---------------------------------------------------------------------------
  // Properties of the detector
  // ---------------------------------------------------------------------------

  /** Strictly increasing in the first appearance of the location. */
  ghost predicate InFirstSeenOrder(s: seq<Alert>, rows: seq<Reading>) {
    forall i, j :: 0 <= i < j < |s| ==> FirstIndex(rows, s[i].loc) < FirstIndex(rows, s[j].loc)
  }

  /** Each present decision is about the location at the same index. */
  ghost predicate Labelled(os: seq<Option<Alert>>, locs: seq<string>) {
    |os| == |locs| && forall i :: 0 <= i < |os| && os[i].Some? ==> os[i].value.loc == locs[i]
  }

  lemma {:induction false} PresentMembership(os: seq<Option<Alert>>)
    ensures forall a :: a in Present(os) <==> Some(a) in os
  {
    if os != [] {
      PresentMembership(os[1..]);
      assert forall o :: o in os <==> o == os[0] || o in os[1..];
    }
  }

  lemma {:induction false} PresentAvoids(os: seq<Option<Alert>>, locs: seq<string>, l: string)
    requires Labelled(os, locs) && l !in locs
    ensures CountLoc(Present(os), l) == 0
  {
    if os != [] {
      var h := if os[0].Some? then [os[0].value] else [];
      assert Labelled(os[1..], locs[1..]);
      PresentAvoids(os[1..], locs[1..], l);
      CountLocConcat(h, Present(os[1..]), l);
      if os[0].Some? {
        assert h[1..] == [];
      }
    }
  }

  lemma {:induction false} PresentAtMostOne(os: seq<Option<Alert>>, locs: seq<string>, l: string)
    requires Labelled(os, locs)
    requires forall i, j :: 0 <= i < j < |locs| ==> locs[i] != locs[j]
    ensures CountLoc(Present(os), l) <= 1
  {
    if os != [] {
      var h := if os[0].Some? then [os[0].value] else [];
      assert Labelled(os[1..], locs[1..]);
      CountLocConcat(h, Present(os[1..]), l);
      if os[0].Some? {
        assert h[1..] == [];
      }
      if os[0].Some? && locs[0] == l {
        assert l !in locs[1..];
        PresentAvoids(os[1..], locs[1..], l);
      } else {
        PresentAtMostOne(os[1..], locs[1..], l);
      }
    }
  }

  lemma {:induction false} PresentAfter(os: seq<Option<Alert>>, locs: seq<string>, rows: seq<Reading>, bound: int)
    requires Labelled(os, locs)
    requires forall i :: 0 <= i < |locs| ==> bound < FirstIndex(rows, locs[i])
    ensures forall a :: a in Present(os) ==> bound < FirstIndex(rows, a.loc)
  {
    if os != [] {
      assert Labelled(os[1..], locs[1..]);
      PresentAfter(os[1..], locs[1..], rows, bound);
    }
  }

  lemma {:induction false} PresentOrdered(os: seq<Option<Alert>>, locs: seq<string>, rows: seq<Reading>)
    requires Labelled(os, locs)
    requires forall i, j :: 0 <= i < j < |locs| ==> FirstIndex(rows, locs[i]) < FirstIndex(rows, locs[j])
    ensures InFirstSeenOrder(Present(os), rows)
  {
    if os != [] {
      var rest := Present(os[1..]);
      assert Labelled(os[1..], locs[1..]);
      PresentOrdered(os[1..], locs[1..], rows);
      if os[0].Some? {
        PresentAfter(os[1..], locs[1..], rows, FirstIndex(rows, locs[0]));
        var c := [os[0].value] + rest;
        forall i, j | 0 <= i < j < |c|
          ensures FirstIndex(rows, c[i].loc) < FirstIndex(rows, c[j].loc)
        {
          assert c[j] == rest[j - 1];
          if i > 0 {
            assert c[i] == rest[i - 1];
          }
        }
      }
    }
  }

  lemma CollectLabelled(rows: seq<Reading>, locs: seq<string>)
    requires WellFormed(rows)
    ensures Labelled(SpikesAt(rows, locs), locs)
  {
  }

  lemma CollectMembership(rows: seq<Reading>, locs: seq<string>)
    requires WellFormed(rows)
    ensures forall a :: a in CollectSpikes(rows, locs) <==> a.loc in locs && SpikeFor(rows, a.loc) == Some(a)
  {
    var os := SpikesAt(rows, locs);
    PresentMembership(os);
    forall a
      ensures Some(a) in os <==> a.loc in locs && SpikeFor(rows, a.loc) == Some(a)
    {
      if Some(a) in os {
        var i :| 0 <= i < |os| && os[i] == Some(a);
        assert locs[i] == a.loc;
      }
      if a.loc in locs && SpikeFor(rows, a.loc) == Some(a) {
        var i :| 0 <= i < |locs| && locs[i] == a.loc;
        assert os[i] == Some(a);
      }
    }
  }

  lemma OfBucketKeepsOrder(s: seq<Alert>, rows: seq<Reading>, b: nat)
    requires InFirstSeenOrder(s, rows)
    ensures InFirstSeenOrder(OfBucket(s, b), rows)
  {
    var key := (a: Alert) => FirstIndex(rows, a.loc);
    assert IncreasingBy(s, key);
    OfBucketIncreasing(s, key, b);
    var r := OfBucket(s, b);
    assert forall i :: 0 <= i < |r| ==> key(r[i]) == FirstIndex(rows, r[i].loc);
  }

  /** Alerts of the same block keep first-appearance order. */
  ghost predicate BlocksInFirstSeenOrder(s: seq<Alert>, rows: seq<Reading>) {
    forall i, j :: 0 <= i < j < |s| && Bucket(s[i].level) == Bucket(s[j].level) ==>
      FirstIndex(rows, s[i].loc) < FirstIndex(rows, s[j].loc)
  }

  lemma JoinBlocks(p: seq<Alert>, q: seq<Alert>, rows: seq<Reading>, k: nat)
    requires BlocksInFirstSeenOrder(p, rows)
    requires InFirstSeenOrder(q, rows)
    requires forall i :: 0 <= i < |p| ==> Bucket(p[i].level) < k
    requires forall i :: 0 <= i < |q| ==> Bucket(q[i].level) == k
    ensures BlocksInFirstSeenOrder(p + q, rows)
  {
    var c := p + q;
    forall i, j | 0 <= i < j < |c| && Bucket(c[i].level) == Bucket(c[j].level)
      ensures FirstIndex(rows, c[i].loc) < FirstIndex(rows, c[j].loc)
    {
      if j < |p| {
        assert c[i] == p[i] && c[j] == p[j];
      } else if i >= |p| {
        assert c[i] == q[i - |p|] && c[j] == q[j - |p|];
      }
    }
  }

  lemma BucketedInFirstSeenOrder(s: seq<Alert>, rows: seq<Reading>)
    requires InFirstSeenOrder(s, rows)
    ensures BlocksInFirstSeenOrder(Bucketed(s), rows)
  {
    var b0, b1, b2, b3 := OfBucket(s, 0), OfBucket(s, 1), OfBucket(s, 2), OfBucket(s, 3);
    OfBucketKeepsOrder(s, rows, 0);
    OfBucketKeepsOrder(s, rows, 1);
    OfBucketKeepsOrder(s, rows, 2);
    OfBucketKeepsOrder(s, rows, 3);
    JoinBlocks([], b0, rows, 0);
    assert [] + b0 == b0;
    JoinBlocks(b0, b1, rows, 1);
    JoinBlocks(b0 + b1, b2, rows, 2);
    JoinBlocks(b0 + b1 + b2, b3, rows, 3);
  }

  /** The per-location alerts, in first-appearance order of the locations. */
  function Unsorted(rows: seq<Reading>): seq<Alert>
    requires WellFormed(rows)
  {
    CollectSpikes(rows, Locations(rows))
  }

  lemma DetectIsBucketed(rows: seq<Reading>)
    requires WellFormed(rows)
    ensures DetectTemperatureSpikes(rows) == Bucketed(Unsorted(rows))
    ensures SortedByRank(DetectTemperatureSpikes(rows), DetectorFallback)
    ensures forall a :: a in DetectTemperatureSpikes(rows) <==> a in Unsorted(rows)
    ensures forall l :: CountLoc(DetectTemperatureSpikes(rows), l) == CountLoc(Unsorted(rows), l)
  {
    var c := Unsorted(rows);
    SortByRankIsBucketed(c, DetectorFallback);
    SortByRankSpec(c, DetectorFallback);
    if rows == [] {
      assert c == [];
    }
    var r := DetectTemperatureSpikes(rows);
    forall a
      ensures a in r <==> a in c
    {
      assert a in r <==> a in multiset(r);
      assert a in c <==> a in multiset(c);
    }
  }

  lemma DetectSound(rows: seq<Reading>)
    requires WellFormed(rows)
    ensures forall a :: a in DetectTemperatureSpikes(rows) ==> SpikeFor(rows, a.loc) == Some(a)
  {
    DetectIsBucketed(rows);
    CollectMembership(rows, Locations(rows));
  }

  lemma DetectComplete(rows: seq<Reading>)
    requires WellFormed(rows)
    ensures forall l :: SpikeFor(rows, l).Some? ==> SpikeFor(rows, l).value in DetectTemperatureSpikes(rows)
  {
    DetectIsBucketed(rows);
    CollectMembership(rows, Locations(rows));
    forall l | SpikeFor(rows, l).Some?
      ensures SpikeFor(rows, l).value in DetectTemperatureSpikes(rows)
    {
      var g := Group(rows, l);
      assert g[0] in rows;
      var i :| 0 <= i < |rows| && rows[i] == g[0];
      assert FirstIndex(rows, l) <= i;
    }
  }

  lemma DetectOnePerLocation(rows: seq<Reading>)
    requires WellFormed(rows)
    ensures forall l :: CountLoc(DetectTemperatureSpikes(rows), l) <= 1
  {
    DetectIsBucketed(rows);
    var locs := Locations(rows);
    CollectLabelled(rows, locs);
    forall l
      ensures CountLoc(Unsorted(rows), l) <= 1
    {
      PresentAtMostOne(SpikesAt(rows, locs), locs, l);
    }
  }

  lemma DetectKeepsFirstSeenOrder(rows: seq<Reading>)
    requires WellFormed(rows)
    ensures BlocksInFirstSeenOrder(DetectTemperatureSpikes(rows), rows)
  {
    DetectIsBucketed(rows);
    CollectLabelled(rows, Locations(rows));
    PresentOrdered(SpikesAt(rows, Locations(rows)), Locations(rows), rows);
    BucketedInFirstSeenOrder(Unsorted(rows), rows);
  }

  /** The detector's contract: exactly the locations whose readings qualify
      get an alert, one each, every alert carries a known level, the list is
      ordered roja, amarilla, azul, and alerts of equal level follow the order
      in which their locations first appear in the fetched rows. */
  lemma DetectTemperatureSpikesSpec(rows: seq<Reading>)
    requires WellFormed(rows)
    ensures rows == [] ==> DetectTemperatureSpikes(rows) == []
    ensures forall a :: a in DetectTemperatureSpikes(rows) ==> SpikeFor(rows, a.loc) == Some(a)
    ensures forall l :: SpikeFor(rows, l).Some? ==> SpikeFor(rows, l).value in DetectTemperatureSpikes(rows)
    ensures forall l :: CountLoc(DetectTemperatureSpikes(rows), l) <= 1
    ensures forall a :: a in DetectTemperatureSpikes(rows) ==> IsKnown(a.level)
    ensures SortedByRank(DetectTemperatureSpikes(rows), DetectorFallback)
    ensures BlocksInFirstSeenOrder(DetectTemperatureSpikes(rows), rows)
  {
    DetectIsBucketed(rows);
    DetectSound(rows);
    DetectComplete(rows);
    DetectOnePerLocation(rows);
    DetectKeepsFirstSeenOrder(rows);
  }

  /** A location with fewer than two readings never yields a spike alert. */
  lemma FewReadingsNoAlert(rows: seq<Reading>, l: string)
    requires WellFormed(rows)
    requires |Group(rows, l)| < 2
    ensures forall a :: a in DetectTemperatureSpikes(rows) ==> a.loc != l
  {
    DetectTemperatureSpikesSpec(rows);
  }

  /** Boundary cases of the rules: two readings of one location, the older
      first. */
  lemma ClassificationExamples()
    ensures Compare("cpd", Reading("cpd", 480, Some(24.5)), Reading("cpd", 0, Some(20.0)))
            == Some(Alert("cpd", Roja, SubidaCritica(4.5, 480)))
    ensures Compare("cpd", Reading("cpd", 480, Some(22.7)), Reading("cpd", 0, Some(20.0)))
            == Some(Alert("cpd", Amarilla, SubidaRapida(2.7, 480)))
    ensures Compare("cpd", Reading("cpd", 720, Some(19.5)), Reading("cpd", 0, Some(25.0)))
            == Some(Alert("cpd", Azul, BajadaBrusca(-5.5, 720)))
    ensures Compare("cpd", Reading("cpd", 1080, Some(23.0)), Reading("cpd", 0, Some(20.0))) == None
    ensures Compare("cpd", Reading("cpd", 600, Some(24.0)), Reading("cpd", 0, Some(20.0)))
            == Some(Alert("cpd", Roja, SubidaCritica(4.0, 600)))
    ensures Compare("cpd", Reading("cpd", 601, Some(24.0)), Reading("cpd", 0, Some(20.0))) == None
    ensures Compare("cpd", Reading("cpd", 0, Some(30.0)), Reading("cpd", 0, Some(20.0))) == None
  {
  }

  /** A two-row window of one location: a rise of 4.5 degrees in 8 minutes. */
  const ExampleRows: seq<Reading> := [Reading("cpd", 0, Some(20.0)), Reading("cpd", 480, Some(24.5))]

  lemma ExampleRowsWellFormed()
    ensures WellFormed(ExampleRows)
    ensures Group(ExampleRows, "cpd") == ExampleRows
  {
    var a, b := ExampleRows[0], ExampleRows[1];
    var rows := ExampleRows;
    assert rows[1..] == [b] && [b][1..] == [];
    assert SortByTime([b]) == [b];
    assert SortByTime(rows) == rows;
    assert Group([b], "cpd") == [b];
    assert Group(rows, "cpd") == [a] + [b];
    forall l
      ensures LatestDefined(Group(rows, l))
    {
      if l != "cpd" {
        assert Group([b], l) == [] + Group([], l);
        assert Group(rows, l) == [] + Group([b], l);
      }
    }
  }

  /** The detector end to end on the two-row window. */
  lemma DetectorExample()
    ensures WellFormed(ExampleRows)
    ensures DetectTemperatureSpikes(ExampleRows) == [Alert("cpd", Roja, SubidaCritica(4.5, 480))]
  {
    ExampleRowsWellFormed();
    var rows := ExampleRows;
    var a := rows[0];
    assert rows[..1] == [a] && [a][..0] == [];
    assert Locations([a]) == ["cpd"];
    assert Locations(rows) == ["cpd"];
    var alert := Alert("cpd", Roja, SubidaCritica(4.5, 480));
    assert SortByTime(rows) == rows by {
      assert rows[1..] == [rows[1]] && [rows[1]][1..] == [];
      assert SortByTime([rows[1]]) == [rows[1]];
    }
    assert SpikeFor(rows, "cpd") == Some(alert);
    assert SpikesAt(rows, ["cpd"]) == [Some(alert)];
    assert Present([Some(alert)]) == [alert];
    assert SortByRank([alert], DetectorFallback) == [alert];
  }
}

=== FILE: wrappers.dfy ===
/** Optional values, used wherever the service reads a possibly-null column
    or looks up a configuration key with a default. */
module Wrappers {

  datatype Option<+T> = None | Some(value: T) {

    /** The value, or `default` when absent: the shape of `dict.get(key, default)`. */
    function GetOr(default: T): (r: T)
      ensures Some? ==> r == value
      ensures None? ==> r == default
    {
      match this
      case Some(v) => v
      case None => default
    }
  }
}
